=== FILE: README.md ===
# Support dashboard backend: access control, errors, validation and stores

This project models the core of the support-dashboard backend in Dafny. The backend is a FastAPI
service in which users register, log in with a bearer token and file support tickets. The model covers:

- the exception hierarchy and the five exception handlers that turn any failed request into a
  uniform `{"error": {code, message, details}}` JSON body;
- the token dependency `get_current_user` and the role checks `require_role`, `require_admin`,
  `require_operator_or_admin`, plus the admin router's own inline check;
- the pydantic rules of the user and ticket request schemas: the closed role, status and priority
  enums, the password-strength rule and the length bounds;
- the handlers of the auth, users, tickets and admin routers, over the `users` and `tickets` tables.

Every handler is a pure function. A table is a `map` from primary key to row plus the next key the
database will issue. A handler that may write returns `Step(store, result)`: the table afterwards,
and either the response or the exception raised instead (`Raised`). Password hashing and token
signing are uninterpreted functions bundled in a `Crypto` value. Properties that need them take
explicit hypotheses: `PasswordsVerify` says a password verifies against its own hash, and
`TokensRoundTrip` says a fresh token verifies to its claims. Credentials are `Option<string>`: the
bearer token, or nothing. Timestamps are integers supplied by the caller.

FastAPI resolves a handler's dependencies before it validates the body or query. So a missing or bad
token is reported before a 422. The model follows that order.

The application mounts the users and tickets routers under `/api` and the auth router under
`/auth` (`backend/app/main.py:83-85`). Some consequences of the code as written:
- `POST /auth/register` and `POST /api/users` set no status code, so a successful registration
  answers 200.
- A role outside `UserRole` at registration fails request validation, so it is a 422.
- An unverifiable token is not answered with a 401 `INVALID_TOKEN`; see Findings. The corrected
  resolver, which every endpoint in the model uses, does raise it.

## Model

| member | source | states |
|---|---|---|
| Exceptions.RaiseBase | backend/app/core/exceptions.py:4-29 | a base exception has its class's status; an omitted detail or code takes the class default |
| Exceptions.RaiseDomain | backend/app/core/exceptions.py:32-45 | domain constructors take no arguments: any argument is a TypeError; without arguments the status is the parent class's |
| Exceptions.UserNotFoundError | backend/app/core/exceptions.py:32-34 | UserNotFound is (404, "User not found", USER_NOT_FOUND) |
| Exceptions.EmailExistsError | backend/app/core/exceptions.py:36-38 | EmailAlreadyExists is (409, "Email already registered", EMAIL_EXISTS) |
| Exceptions.InvalidCredentialsError | backend/app/core/exceptions.py:40-42 | InvalidCredentials is (401, "Invalid credentials", INVALID_CREDENTIALS) |
| Exceptions.NotAuthenticatedError | backend/app/core/exceptions.py:43-45 | NotAuthenticated is (401, "Not authenticated", NOT_AUTHENTICATED) |
| Exceptions.ForbiddenError | backend/app/core/exceptions.py:47-50 | ForbiddenException(detail) is a 403 carrying that detail and code FORBIDDEN |
| Exceptions.BaseStatusFixed | backend/app/core/exceptions.py:10-29 | whatever detail and code are given, NotFound/Unauthorized/BadRequest/Conflict/Forbidden are 404/401/400/409/403 |
| Exceptions.DomainInheritsStatus | backend/app/core/exceptions.py:32-45 | every domain exception has its parent's status with its own fixed detail and code |
| ErrorHandlers.CodeForDetail | backend/app/core/error_handlers.py:37-46 | a detail listed in the six-entry table gets its code; any other detail gets HTTP_ERROR |
| ErrorHandlers.IssuesJson | backend/app/core/error_handlers.py:70 | validation details list exactly one entry per issue |
| ErrorHandlers.RenderAsWritten | backend/app/core/error_handlers.py:12-105 | which handler catches each kind of exception and what it sends; a validation error carrying a validator's ValueError cannot be serialised and ends as 500 INTERNAL_ERROR |
| ErrorHandlers.Render | backend/app/core/error_handlers.py:59-73 | corrected: the same handlers with the validation details encoded, so every validation error is 422 VALIDATION_ERROR with one detail per issue |
| ErrorHandlers.AsWrittenDiffersOnlyOnValidatorErrors | backend/app/core/error_handlers.py:64-73 | the two renderings differ exactly on validation errors carrying a validator's error: 500 as written, 422 encoded |
| ErrorHandlers.RenderWellShaped | backend/app/core/error_handlers.py:22-28 | every rendered body, as written or encoded, is exactly `{"error": {code, message, details}}` with string code and message |
| ErrorHandlers.RenderApi | backend/app/core/error_handlers.py:15-29 | a BaseAPIException keeps its status; code is its error_code, message its detail, details null |
| ErrorHandlers.RenderHttp | backend/app/core/error_handlers.py:31-57 | a plain HTTPException keeps status and detail; its code is the table entry for the detail or HTTP_ERROR |
| ErrorHandlers.OnlyValidationHasDetails | backend/app/core/error_handlers.py:59-73 | encoded, details are non-null iff the request failed validation, whose message is "Invalid request data"; as written, only if no issue carries a validator's error |
| ErrorHandlers.ServerErrorsHideText | backend/app/core/error_handlers.py:75-105 | database and other errors are 500 DATABASE_ERROR / INTERNAL_ERROR, and the body does not depend on the exception's text |
| ErrorHandlers.TableAgreesWithDomainCodes | backend/app/core/error_handlers.py:37-44 | for each domain exception the table maps its detail to its own error code, so both handlers render the same code |
| Dependencies.InvalidTokenError | backend/app/core/error_handlers.py:39 | the error for a bad token is a 401 with detail "Invalid token" and code INVALID_TOKEN |
| Dependencies.GetCurrentUserAsWritten | backend/app/core/dependencies.py:13-25 | no credentials is NotAuthenticated; a token that does not verify ends in a TypeError; otherwise the verified payload |
| Dependencies.GetCurrentUser | backend/app/core/dependencies.py:13-25 | a payload is returned iff credentials are present and verify, and it is exactly the verified payload; never None |
| Dependencies.InvalidTokenAsWrittenIs500 | backend/app/core/dependencies.py:21-23 | as written, every unverifiable token renders as 500 INTERNAL_ERROR |
| Dependencies.InvalidTokenIs401 | backend/app/core/dependencies.py:21-23 | corrected, an unverifiable token renders 401 INVALID_TOKEN, and both versions agree on all other inputs |
| Dependencies.RequireRole | backend/app/core/dependencies.py:28-43 | passes iff the role is admin or the required one, returning the payload unchanged; otherwise 403 "Requires {r} role" |
| Dependencies.RequireAdmin | backend/app/core/dependencies.py:46-50 | passes iff the role is admin; otherwise 403 "Admin access required" FORBIDDEN |
| Dependencies.RequireOperatorOrAdmin | backend/app/core/dependencies.py:53-59 | passes iff the role is operator or admin; otherwise 403 "Operator or admin access required" |
| Dependencies.AdminPassesEveryRole | backend/app/core/dependencies.py:33-35 | an admin passes every role check unchanged |
| Dependencies.NoHierarchyBelowAdmin | backend/app/core/dependencies.py:37-39 | a caller passing two different role requirements is an admin: no other role implies another |
| Dependencies.RequireAdminAgreesWithRequireRole | backend/app/core/dependencies.py:46-50 | require_admin lets through exactly the callers require_role("admin") lets through |
| Dependencies.OperatorOrAdminIsRequireOperator | backend/app/core/dependencies.py:53-59 | require_operator_or_admin agrees with require_role("operator"); user and manager are refused |
| Dependencies.SubjectId | backend/app/routers/auth.py:76 | `int(current_user["sub"])`: KeyError without "sub", ValueError when it is not an integer, else its value |
| Decimal.ParseInt | backend/app/routers/auth.py:76 | `int(s)` succeeds iff s is an optional sign followed by at least one ASCII digit |
| Decimal.NatToString | backend/app/routers/auth.py:31 | `str(n)` is a non-empty run of digits with no leading zero |
| Decimal.IntToString | backend/app/routers/auth.py:31 | `str(n)`: a non-empty string, starting with a digit for n ≥ 0 and with '-' for n < 0 |
| Decimal.ParseIntToString | backend/app/routers/auth.py:31 | `int(str(n)) == n` for every integer, so the sub claim round-trips |
| Decimal.IntToStringInjective | backend/app/routers/auth.py:31 | distinct ids give distinct sub claims |
| UserSchema.ParseRole | backend/app/schemas/user.py:7-12 | a parsed role has exactly the string it was parsed from as its name |
| UserSchema.RoleNamesExact | backend/app/schemas/user.py:7-12 | a string is a role iff it is user, operator, manager or admin; names and roles are a bijection |
| UserSchema.PasswordStrength | backend/app/schemas/user.py:22-30 | a password is refused iff it is shorter than 6 characters or is "password" in any letter case; an accepted one is returned unchanged |
| UserSchema.CheckPassword | backend/app/schemas/user.py:18-30 | the password field passes iff it is present, has at least 6 characters and is not "password" in any case |
| UserSchema.PasswordRule | backend/app/schemas/user.py:26-27 | a short password is stopped by min_length first, so the validator's own length branch never fires |
| UserSchema.PasswordAnyCase | backend/app/schemas/user.py:28-29 | "PassWord" and "PASSWORD" are refused, "secret1" is accepted |
| UserSchema.CheckMaxLength | backend/app/schemas/user.py:19 | an optional field passes iff it is absent or within the maximum length |
| UserSchema.CheckRequired | backend/app/schemas/user.py:17 | a required field passes iff it is present |
| UserSchema.CheckRole | backend/app/schemas/user.py:38 | an Optional role field passes iff absent or a role name |
| UserSchema.CheckRoleField | backend/app/schemas/user.py:20 | the UserCreate role passes iff it is absent or a role name; an explicit null is refused |
| UserSchema.ValidateUserCreate | backend/app/schemas/user.py:15-30 | UserCreate is accepted iff email and a strong password are present, full_name ≤ 100 and role is absent or a role name; values are copied and an absent role defaults to user |
| UserSchema.NullRoleIsNotAbsentRole | backend/app/schemas/user.py:20 | leaving the role out registers a user; sending null is refused |
| UserSchema.ValidateUserUpdate | backend/app/schemas/user.py:33-38 | every field optional; accepted iff full_name ≤ 100 and any role is a role name; values copied |
| UserSchema.ValidateUserLogin | backend/app/schemas/user.py:54-57 | accepted iff email is present and password non-empty; values copied |
| UserSchema.LoginSkipsStrengthRule | backend/app/schemas/user.py:54-57 | a password too weak to register with is still a valid login request |
| TicketSchema.ParseStatus | backend/app/schemas/ticket.py:6-10 | a parsed status has the string it was parsed from as its name |
| TicketSchema.ParsePriority | backend/app/schemas/ticket.py:13-18 | a parsed priority has the string it was parsed from as its name |
| TicketSchema.EnumNamesExact | backend/app/schemas/ticket.py:6-18 | a status is exactly open, in_progress or closed; a priority exactly low, medium, high or urgent |
| TicketSchema.CheckBounds | backend/app/schemas/ticket.py:24-25 | a string passes iff its length is within the bounds |
| TicketSchema.ValidateTicketCreate | backend/app/schemas/ticket.py:21-26 | accepted iff title has 1..200 and description 1..5000 characters; the result holds only those two, no owner |
| TicketSchema.ValidateTicketUpdate | backend/app/schemas/ticket.py:28-34 | every field optional; a present one obeys the create bounds or its enum; values copied |
| UserStore.FindByEmail | backend/app/routers/auth.py:23-24 | finds a row iff one has that email, and returns that stored row |
| UserStore.FindById | backend/app/routers/auth.py:78-79 | finds a row iff the id is a key, and returns that row |
| UserStore.AllUsers | backend/app/routers/users.py:73-74 | lists exactly the stored rows, each once, in ascending key order |
| UserStore.Insert | backend/app/routers/auth.py:58-67 | adds exactly one row under the next key, keeping keys, ids and emails consistent; the next key then advances by one |
| UserStore.ToResponse | backend/app/schemas/user.py:41-48 | a row renders iff its role is a UserRole name (else a 500), copying id, email, full_name, role and timestamps |
| UserStore.ResponseHidesPassword | backend/app/schemas/user.py:41-48 | the response does not depend on the stored password hash |
| TicketStore.AllTickets | backend/app/routers/tickets.py:42 | lists exactly the stored tickets, each once, in ascending key order |
| TicketStore.ToResponse | backend/app/schemas/ticket.py:37-50 | a row renders iff its status and priority are enum members (else a 500), copying every field |
| Table.Where | backend/app/routers/tickets.py:44-45 | a filter keeps exactly the rows satisfying it, and no more than it was given |
| Table.Window | backend/app/routers/tickets.py:49 | offset/limit returns at most `size` rows, the i-th being row skip+i |
| Table.Bind | backend/app/routers/tickets.py:47-49 | an integer parameter reaches the query iff it lies in the signed 64-bit range the SQLite driver binds; outside it the request fails with an OverflowError, a 500 |
| Table.ScanCountAll | backend/app/routers/tickets.py:52-53 | counting the scanned rows gives the number of rows in the table |
| Table.ScanAscending | backend/app/routers/tickets.py:42 | a table scan returns its rows in strictly ascending key order, within the scanned range |
| Table.WhereAscending | backend/app/routers/tickets.py:44-45 | a WHERE filter keeps the order of the rows it filters |
| AuthRouter.Claims | backend/app/routers/auth.py:30-34 | the token claims are exactly sub, email and role; sub reads back through `int()` as the user's id, email and role are the row's |
| AuthRouter.Login | backend/app/routers/auth.py:17-43 | store unchanged; unknown email and wrong password both give InvalidCredentials; success iff a row with that email verifies; the token carries sub, email and role of that row and the response echoes them with type "bearer" |
| AuthRouter.Register | backend/app/routers/auth.py:45-69 | a taken email gives EMAIL_EXISTS with the store unchanged; otherwise exactly one row is added holding the password's hash and the requested role or "user" |
| AuthRouter.Me | backend/app/routers/auth.py:71-84 | for a verified token, answers the stored user whose id is int(sub), USER_NOT_FOUND when there is none, the KeyError/ValueError of a bad sub, and a 500 OverflowError for a sub outside the signed 64-bit range; no credentials is NotAuthenticated, a bad token INVALID_TOKEN |
| AuthRouter.WeakPasswordRegisterIs500AsWritten | backend/app/schemas/user.py:28-29 | registering with password "Password" changes nothing and, as written, renders 500; encoded it is 422 |
| AuthRouter.LoginThenMe | backend/app/routers/auth.py:29-35 | a token issued at login leads /auth/me back to the user who logged in, as long as stored keys fit in 64 bits |
| AuthRouter.RegisterThenLogin | backend/app/routers/auth.py:56-62 | a user who just registered can log in with the same email and password and gets the registered role |
| AuthRouter.DuplicateRegisterRendersEmailExists | backend/app/routers/auth.py:50-54 | registering a taken email leaves the store unchanged and raises (409, EMAIL_EXISTS) |
| AuthRouter.RegisterKeepsRolesValid | backend/app/routers/auth.py:62 | registration only stores UserRole names |
| UsersRouter.CreateUser | backend/app/routers/users.py:16-36 | behaves exactly like registration and keeps the table valid |
| UsersRouter.CurrentUserInfo | backend/app/routers/users.py:38-51 | behaves exactly like /auth/me |
| UsersRouter.GetUserById | backend/app/routers/users.py:53-65 | any authenticated caller gets the user with that id, or USER_NOT_FOUND; an id outside the signed 64-bit range is a 500 OverflowError |
| UsersRouter.GetOwnUserIsMe | backend/app/routers/users.py:53-65 | reading one's own id answers exactly what /auth/me answers |
| UsersRouter.GetAllUsers | backend/app/routers/users.py:68-75 | only admins get the list, which holds every stored user once, in key order; a bad token gets its error and others get 403 "Requires admin role" |
| UsersRouter.AdminListMatchesLookups | backend/app/routers/users.py:53-75 | for an admin, the list holds every user the single lookup finds, and each listed row is what the lookup finds for its id |
| UsersRouter.AsAdmin | backend/app/routers/users.py:82 | the admin gate passes the caller's payload iff the token verifies and the role is admin; otherwise the token's error, or 403 "Requires admin role" |
| UsersRouter.UpdateUserRole | backend/app/routers/users.py:77-94 | the token's error, then 403 "Requires admin role" for a non-admin, then a 500 OverflowError for an id outside the signed 64-bit range, then USER_NOT_FOUND, each with the store unchanged; otherwise only that user's role changes, to `role_data["role"]` when given |
| UsersRouter.UpdateUserRoleStoresNonRole | backend/app/routers/users.py:90 | as written, an admin can store "superuser", after which reading that user fails with a 500 |
| UsersRouter.UpdateUserRoleChecked | backend/app/routers/users.py:77-94 | the same admin check, 64-bit overflow and USER_NOT_FOUND first; it succeeds iff the caller is an admin, the user exists and any given role is a UserRole name; for an admin and a stored user a role outside UserRole is a 422 with the store unchanged; without such a role it agrees with the handler as written |
| UsersRouter.UpdateUserRoleCheckedKeepsRolesValid | backend/app/routers/users.py:90 | with the check, stored roles stay UserRole names |
| TicketsRouter.CreateTicket | backend/app/routers/tickets.py:14-32 | the token's error first, then the 422 of an invalid body, then the error of a bad sub or a 500 OverflowError for a sub outside the signed 64-bit range, each with the store unchanged; otherwise a new ticket is stored under the next key with owner int(sub), status "open", priority "medium" and the request's title and description, and answered as that TicketResponse |
| TicketsRouter.CheckPaging | backend/app/routers/tickets.py:37-38 | page and page_size are accepted iff page ≥ 1 and 1 ≤ page_size ≤ 100 |
| TicketsRouter.Listing | backend/app/routers/tickets.py:42-45 | the query selects exactly the stored tickets with the status asked for, when a non-empty one is given, each once, in key order |
| TicketsRouter.Offset | backend/app/routers/tickets.py:47 | the offset is non-negative and ends one page before page·page_size; page 1 starts at row 0 |
| TicketsRouter.PageInRange | backend/app/routers/tickets.py:47-61 | a page starts before the last row iff its number is at most the page count |
| TicketsRouter.RowOnPage | backend/app/routers/tickets.py:47 | row i lies on page i / page_size + 1 |
| TicketsRouter.PageCount | backend/app/routers/tickets.py:61 | pages = ⌈total / page_size⌉: 0 for no rows, else pages·page_size ≥ total > (pages−1)·page_size |
| TicketsRouter.PageRows | backend/app/routers/tickets.py:47-49 | a page holds min(page_size, rows left after the offset) rows, the i-th being selected row offset+i |
| TicketsRouter.GetTickets | backend/app/routers/tickets.py:34-63 | page defaults to 1 and page_size to 25; a page holds min(page_size, rows left after the offset) tickets, the i-th being selected row offset+i, each stored and of the requested status; total counts all tickets; page is unbounded, so an offset beyond 2^63-1 is a 500 OverflowError |
| TicketsRouter.FilteredPageCountOvercounts | backend/app/routers/tickets.py:52-61 | as written, one open ticket out of two with page_size 1 announces 2 pages, and page 2 is empty |
| TicketsRouter.GetTicketsFilteredTotal | backend/app/routers/tickets.py:52-61 | the same page and exactly the same errors; total is the number of filtered rows, each counted once, and pages its ceiling over page_size; unchanged when no filter applies |
| TicketsRouter.FilteredTotalPage | backend/app/routers/tickets.py:47-61 | a well-formed page request whose offset fits in 64 bits answers its slice of the selected rows with the filtered total and its page count |
| TicketsRouter.RowInPage | backend/app/routers/tickets.py:47-61 | row i of a selection lies on page i / page_size + 1, which is within the page count |
| TicketsRouter.FilteredTotalPagesExact | backend/app/routers/tickets.py:61 | with the filtered total, a page whose offset fits in 64 bits is non-empty iff its number is at most the page count |
| TicketsRouter.FilteredTotalCoversRow | backend/app/routers/tickets.py:61 | with the filtered total, every selected row appears on an announced page |
| TicketsRouter.GetTicket | backend/app/routers/tickets.py:66-85 | shows the stored ticket's fields, or 404 "Ticket not found"; an id outside the signed 64-bit range is a 500 OverflowError |
| TicketsRouter.OversizedParametersAre500 | backend/app/routers/tickets.py:34-49 | a ticket id of 2^63 and a page whose offset passes 2^63-1 are both answered with a 500 |
| TicketsRouter.TicketNotFoundRendersHttpError | backend/app/routers/tickets.py:76 | a missing ticket renders as 404 with code HTTP_ERROR |
| TicketsRouter.UpdateTicket | backend/app/routers/tickets.py:88-118 | only given arguments overwrite; id, owner, priority, created_at and every other row are unchanged; updated_at becomes `now` iff the row changed; a missing id is 404 and an id outside the signed 64-bit range a 500, both with the store untouched |
| TicketsRouter.UpdateTicketAcceptsAnyStatus | backend/app/routers/tickets.py:93-108 | the update stores a status outside TicketStatus as given |
| TicketsRouter.DeleteTicket | backend/app/routers/tickets.py:121-136 | removes exactly that id and leaves every other ticket; a missing id is 404 and an id outside the signed 64-bit range a 500, both with the store untouched |
| TicketsRouter.MyTickets | backend/app/routers/tickets.py:138-149 | the token's error, then the error of a bad sub or a 500 OverflowError for a sub outside the signed 64-bit range; otherwise exactly the stored tickets whose owner is int(sub), each once, in key order |
| TicketsRouter.CreatedTicketIsMine | backend/app/routers/tickets.py:143-147 | the row of a ticket the caller just created is among their tickets |
| TicketsRouter.DeleteLeavesOthers | backend/app/routers/tickets.py:127-136 | after a delete, every other ticket reads the same and the deleted one is 404 |
| AdminRouter.RequireAdminInline | backend/app/routers/admin.py:9-12 | passes iff the role is admin; otherwise a plain 403 "Admin access required" |
| AdminRouter.InlineCheckAgreesButRendersHttpError | backend/app/routers/admin.py:12 | refuses exactly whom require_admin refuses, but renders code HTTP_ERROR where require_admin renders FORBIDDEN |
| AdminRouter.Guarded | backend/app/routers/admin.py:16-18 | the token is resolved first, then the inline check, and only then the payload is returned |
| AdminRouter.AdminDashboard | backend/app/routers/admin.py:15-27 | admins only; the fixed dashboard with 150 users, 23 active and 45 resolved tickets |
| AdminRouter.AdminUsers | backend/app/routers/admin.py:30-43 | admins only; the four user-management actions |
| AdminRouter.AdminSystem | backend/app/routers/admin.py:46-59 | admins only; the four system features |
| AdminRouter.OperatorRefused | backend/app/routers/admin.py:9-12 | an operator's valid token gets 403 from all three endpoints |

## Left out

- `app.core.security` is not part of this model. Hashing, token signing, verification and token expiry are uninterpreted functions. The 30-minute lifetime and HS256 come from `config.py` and only matter inside them.
- HTTPBearer's header parsing: credentials are the bearer token or nothing. `HTTPBearer()` keeps `auto_error`, so the `if not credentials` branch of `get_current_user` never runs: HTTPBearer refuses a missing header itself with an HTTPException "Not authenticated" (403 in older FastAPI releases, 401 in newer ones). The model's 401 NotAuthenticated for absent credentials stands for that refusal.
- UserSchema.ValidateUserCreate: `EmailStr` is not modelled. It checks syntax, strips whitespace, accepts the `Name <address>` form and lower-cases the domain. The model accepts any present email string and keeps it exactly as given.
- UserSchema.ValidateUserUpdate: the optional email is copied as given, without `EmailStr` checking or normalisation.
- UserSchema.ValidateUserLogin: the email is copied as given, without `EmailStr` checking or normalisation.
- UserStore.FindByEmail: emails are compared exactly as stored and as given. In the service, "a@Example.com" and "a@example.com" normalise to the same address and collide; in the model they do not.
- UserStore.Valid: email uniqueness is an invariant the handlers keep by looking up before inserting. `backend/app/models/user.py` is not part of this model, so no database constraint is assumed. Requests are taken one at a time; two concurrent registrations of one email are not modelled.
- Decimal.ParseInt: Python's `int()` also accepts surrounding whitespace, underscores between digits and non-ASCII digits. These are not modelled. Tokens this backend issues never contain them.
- UserSchema.Lower lowers ASCII letters only. Python's `str.lower()` also lowers other scripts. No character outside ASCII lowers to a letter of "password", so the strength rule is unaffected.
- A JSON `null` for an `Optional` field is treated like an absent field, as pydantic does. `UserCreate.role` has a default but is not `Optional`, so the model keeps null (a 422) apart from absent (the default). For a required field, null and absent are both one issue, recorded as `Missing`; pydantic names the two differently. Pydantic's coercion of non-string JSON values into strings and enums is not modelled.
- The issue list of a validation error keeps only field and rule. A rule `Rejected` marks an issue whose `ctx` holds a field validator's `ValueError`; otherwise pydantic's full messages, `input` and `ctx` members are not modelled.
- UsersRouter.GetAllUsers and UsersRouter.UpdateUserRole return raw rows. How the framework serialises ORM rows, including the password column, is not modelled.
- UsersRouter.UpdateUserRole: the body of a role update is modelled as a map from strings to strings. A JSON role value that is not a string (a number, a list) is not modelled.
- Timestamps: `created_at` is the `now` argument. For tickets, `updated_at` becomes the `now` argument when an update changes a column, following `onupdate=func.now()` in `backend/app/models/ticket.py:17`; an update that changes nothing emits no UPDATE and keeps it. `backend/app/models/user.py` is not part of this model, so a role update keeps the user's `updated_at` unchanged.
- SQLite may reuse the key of the highest deleted row when a table has no AUTOINCREMENT. The model never reuses keys.
- UserStore.Insert and TicketsRouter.CreateTicket issue keys without an upper bound. SQLite keys are signed 64-bit, and past 2^63-1 SQLite picks an unused key at random; that is not modelled. Lemmas that look a stored user up again by int(sub) assume `UserStore.KeysFit`, that every stored key lies in the 64-bit range.
- Table.Bind models the driver's OverflowError. A pydantic release that itself caps integers at 64 bits would answer an oversized path or query integer with a 422 instead; the source pins no version.
- Rows without ORDER BY are modelled as returned in ascending key order.
- The `ON DELETE CASCADE` foreign key from tickets to users is not modelled. No handler deletes users.
- `BaseAPIException` raised directly with no error code (`None`) is not modelled. No handler does so.
- Logging in the exception handlers is not modelled.
- `backend/app/models/user.py` is not part of this model. The user row holds the fields the handlers read and write.
- The handlers are modelled against a working asynchronous session. `database.py:1-21` builds a synchronous `create_engine`/`sessionmaker` session, so, as written, every `await db.execute(...)` and `await db.commit()` raises a TypeError (a 500) before any read or write; the model does not carry that failure into every route.
- The frontend, `main.py`, the rest of `database.py` and the package re-exports are not modelled. `main.py:81-85` never mounts the admin router, so its endpoints are modelled as written but are unreachable in the running service.
- `backend/app/main.py` never calls `setup_exception_handlers`. So the running service sends FastAPI's default `{"detail": …}` bodies, not the uniform error body. `ErrorHandlers.Render` and `ErrorHandlers.RenderAsWritten` model the handlers as if they were installed. The statuses of the domain exceptions do not depend on this. A TypeError or a response-validation failure is a 500 either way.
- Database failures (`SQLAlchemyError`) are modelled only in how they render (`ErrorHandlers.Render`). No handler in the model produces one.

## Findings

| source | as written | input that shows it | evidently intended | confidence | as-written member | corrected member |
|---|---|---|---|---|---|---|
| backend/app/core/dependencies.py:23 | `NotAuthenticatedException(detail="Invalid token")` passes a keyword to a constructor that takes none, so the request fails with a TypeError | any bearer token that `verify_token` rejects: 500 INTERNAL_ERROR instead of 401 | a 401 with detail "Invalid token" and code INVALID_TOKEN, as the handler table lists | high; not executed | Dependencies.InvalidTokenAsWrittenIs500 | Dependencies.InvalidTokenIs401 |
| backend/app/routers/tickets.py:52-61 | `total` counts every ticket even when the page is filtered by status, so `pages` overcounts | one open and one closed ticket, `status=open`, `page_size=1`: 2 pages announced, page 2 empty | total and pages count the filtered rows | high; not executed | TicketsRouter.FilteredPageCountOvercounts | TicketsRouter.FilteredTotalPagesExact |
| backend/app/core/error_handlers.py:64-73 | `exc.errors()` goes into the body unencoded; pydantic puts a field validator's `ValueError` object into that issue's `ctx`, which JSON serialisation rejects, so the catch-all handler answers | with the handlers installed, `POST /auth/register {"email": "a@b.co", "password": "Password"}`: 500 INTERNAL_ERROR instead of 422 | the details passed through `jsonable_encoder`, giving 422 VALIDATION_ERROR | medium; not executed | AuthRouter.WeakPasswordRegisterIs500AsWritten | ErrorHandlers.AsWrittenDiffersOnlyOnValidatorErrors |
| backend/app/routers/users.py:90 | the new role is taken from an untyped dict and stored unchecked; this assumes `role` is a plain string column, since `models/user.py` is not part of this model (with an Enum column the write would instead fail at flush with a 500) | `{"role": "superuser"}` by an admin: the user is stored, then every read of that user through `UserResponse` (`/auth/me`, `/api/users/me`, `/api/users/{id}`) fails response validation with a 500; `/auth/login` and `GET /api/admin/users` have no response model and still answer | only UserRole names are accepted; others are a 422 | medium; not executed | UsersRouter.UpdateUserRoleStoresNonRole | UsersRouter.UpdateUserRoleCheckedKeepsRolesValid |

=== FILE: admin_router.dfy ===
/** The handlers of backend/app/routers/admin.py, with their own inline admin check. */
module AdminRouter {
  import opened Wrappers
  import opened Exceptions
  import opened Security
  import opened Dependencies
  import ErrorHandlers

  /** The router's local `require_admin`: a plain HTTPException rather than the
      module-level ForbiddenException. */
  function RequireAdminInline(user: Payload): (r: Result<(), Raised>)
    ensures r.Ok? <==> "role" in user && user["role"] == "admin"
    ensures r.Err? ==> r.error == Http(403, "Admin access required")
  {
    if RoleOf(user) != Some("admin") then Err(Http(403, "Admin access required")) else Ok(())
  }

  /** It refuses exactly whom the module-level checks refuse; only the rendered code differs:
      its detail is not in the handler table, so the refusal renders as HTTP_ERROR, not
      FORBIDDEN. */
  lemma InlineCheckAgreesButRendersHttpError(user: Payload)
    ensures RequireAdminInline(user).Ok? <==> Dependencies.RequireAdmin(user).Ok?
    ensures RequireAdminInline(user).Ok? <==> RequireRole("admin", user).Ok?
    ensures RequireAdminInline(user).Err? ==>
      && ErrorHandlers.Render(RequireAdminInline(user).error).status == 403
      && ErrorHandlers.ErrorCode(ErrorHandlers.Render(RequireAdminInline(user).error)) == "HTTP_ERROR"
      && ErrorHandlers.ErrorCode(ErrorHandlers.Render(Dependencies.RequireAdmin(user).error)) == "FORBIDDEN"
  {
  }

  /** The constant bodies the three endpoints answer with. */
  datatype AdminPayload =
    | Dashboard(message: string, totalUsers: int, activeTickets: int, resolvedThisWeek: int)
    | Listing(message: string, entries: seq<string>)

  const DashboardPayload: AdminPayload := Dashboard("Admin dashboard", 150, 23, 45)
  const UsersPayload: AdminPayload :=
    Listing("Admin users management", ["view_all_users", "modify_roles", "reset_passwords", "deactivate_accounts"])
  const SystemPayload: AdminPayload :=
    Listing("System administration", ["database_management", "backup_restore", "system_logs", "performance_metrics"])

  /** Resolve the caller, run the inline check, and only then answer. */
  function Guarded(c: Crypto, credentials: Option<string>, payload: AdminPayload): (r: Result<AdminPayload, Raised>)
    ensures GetCurrentUser(c, credentials).Err? ==> r == Err(GetCurrentUser(c, credentials).error)
    ensures r.Ok? <==> GetCurrentUser(c, credentials).Ok? && RoleOf(GetCurrentUser(c, credentials).value) == Some("admin")
    ensures r.Ok? ==> r.value == payload
    ensures GetCurrentUser(c, credentials).Ok? && r.Err? ==> r.error == Http(403, "Admin access required")
  {
    var user :- GetCurrentUser(c, credentials);
    var _ :- RequireAdminInline(user);
    Ok(payload)
  }

  /** `GET /admin/monitoring`. */
  function AdminDashboard(c: Crypto, credentials: Option<string>): (r: Result<AdminPayload, Raised>)
    ensures r.Ok? <==> GetCurrentUser(c, credentials).Ok? && RoleOf(GetCurrentUser(c, credentials).value) == Some("admin")
    ensures r.Ok? ==> r.value == Dashboard("Admin dashboard", 150, 23, 45)
  {
    Guarded(c, credentials, DashboardPayload)
  }

  /** `GET /admin/users` of this router, which the application never mounts. */
  function AdminUsers(c: Crypto, credentials: Option<string>): (r: Result<AdminPayload, Raised>)
    ensures r.Ok? <==> GetCurrentUser(c, credentials).Ok? && RoleOf(GetCurrentUser(c, credentials).value) == Some("admin")
    ensures r.Ok? ==> r.value == Listing("Admin users management",
                                          ["view_all_users", "modify_roles", "reset_passwords", "deactivate_accounts"])
  {
    Guarded(c, credentials, UsersPayload)
  }

  /** `GET /admin/system`. */
  function AdminSystem(c: Crypto, credentials: Option<string>): (r: Result<AdminPayload, Raised>)
    ensures r.Ok? <==> GetCurrentUser(c, credentials).Ok? && RoleOf(GetCurrentUser(c, credentials).value) == Some("admin")
    ensures r.Ok? ==> r.value == Listing("System administration",
                                          ["database_management", "backup_restore", "system_logs", "performance_metrics"])
  {
    Guarded(c, credentials, SystemPayload)
  }

  /** An operator's valid token is refused by every admin endpoint with a 403. */
  lemma OperatorRefused(c: Crypto, token: string)
    requires c.verifyToken(token).Some? && RoleOf(c.verifyToken(token).value) == Some("operator")
    ensures AdminDashboard(c, Some(token)) == Err(Http(403, "Admin access required"))
    ensures AdminUsers(c, Some(token)) == Err(Http(403, "Admin access required"))
    ensures AdminSystem(c, Some(token)) == Err(Http(403, "Admin access required"))
  {
  }
}

=== FILE: auth_router.dfy ===
/** The handlers of backend/app/routers/auth.py: login, registration and `/auth/me`. */
module AuthRouter {
  import opened Wrappers
  import opened Exceptions
  import opened Security
  import opened Decimal
  import opened UserStore
  import opened Dependencies
  import UserSchema
  import ErrorHandlers
  import Table

  /** The claims login puts into a token for a user: `sub` is the id as a decimal string,
      which `int()` reads back as the id. */
  function Claims(u: User): (p: Payload)
    ensures p.Keys == {"sub", "email", "role"}
    ensures ParseInt(p["sub"]) == Some(u.id)
    ensures p["email"] == u.email && p["role"] == u.role
  {
    ParseIntToString(u.id);
    map["sub" := IntToString(u.id), "email" := u.email, "role" := u.role]
  }

  datatype LoginResponse = LoginResponse(accessToken: string, tokenType: string, userId: int, email: string, role: string)

  /** `POST /auth/login`. The store is only read. An unknown email and a wrong password end
      in the same InvalidCredentials; on success the token carries the stored user's id,
      email and role. */
  function Login(c: Crypto, s: Users, req: UserSchema.UserLoginRequest): (o: Step<Users, LoginResponse>)
    requires Valid(s)
    ensures o.store == s
    ensures UserSchema.ValidateUserLogin(req).Err? ==>
      o.result == Err(RequestInvalid(UserSchema.ValidateUserLogin(req).error))
    ensures UserSchema.ValidateUserLogin(req).Ok? && o.result.Err? ==> o.result.error == InvalidCredentialsError()
    ensures UserSchema.ValidateUserLogin(req).Ok? ==>
      (o.result.Ok? <==> exists id :: id in s.rows && s.rows[id].email == req.email.value
                                      && c.verifyPassword(req.password.value, s.rows[id].passwordHash))
    ensures o.result.Ok? ==> o.result.value.userId in s.rows
    ensures o.result.Ok? ==>
      var u := s.rows[o.result.value.userId];
      && req.email == Some(u.email)
      && o.result.value == LoginResponse(c.createAccessToken(Claims(u)), "bearer", u.id, u.email, u.role)
  {
    var result :=
      match UserSchema.ValidateUserLogin(req)
      case Err(issues) => Err(RequestInvalid(issues))
      case Ok(login) =>
        match FindByEmail(s, login.email)
        case None => Err(InvalidCredentialsError())
        case Some(u) =>
          if !c.verifyPassword(login.password, u.passwordHash) then Err(InvalidCredentialsError())
          else Ok(LoginResponse(c.createAccessToken(Claims(u)), "bearer", u.id, u.email, u.role));
    Step(s, result)
  }

  /** `POST /auth/register`. A taken email is refused with the table unchanged; otherwise
      exactly one row is added, holding the hash of the password and the requested role
      (`user` by default). */
  function Register(c: Crypto, s: Users, req: UserSchema.UserCreateRequest, now: int): (o: Step<Users, UserSchema.UserResponse>)
    requires Valid(s)
    ensures Valid(o.store)
    ensures UserSchema.ValidateUserCreate(req).Err? ==>
      o == Step(s, Err(RequestInvalid(UserSchema.ValidateUserCreate(req).error)))
    ensures UserSchema.ValidateUserCreate(req).Ok? && EmailTaken(s, req.email.value) ==>
      o == Step(s, Err(EmailExistsError()))
    ensures o.result.Ok? <==> UserSchema.ValidateUserCreate(req).Ok? && !EmailTaken(s, req.email.value)
    ensures o.result.Ok? ==>
      && s.nextId !in s.rows
      && o.store.nextId == s.nextId + 1
      && o.store.rows == s.rows[s.nextId := User(s.nextId, req.email.value, c.hashPassword(req.password.value),
                                                  req.fullName, req.role.GetOr("user"), now, None)]
      && o.result.value.id == s.nextId && o.result.value.email == req.email.value
      && UserSchema.RoleName(o.result.value.role) == req.role.GetOr("user")
  {
    match UserSchema.ValidateUserCreate(req)
    case Err(issues) => Step(s, Err(RequestInvalid(issues)))
    case Ok(data) =>
      if FindByEmail(s, data.email).Some? then Step(s, Err(EmailExistsError()))
      else
        var (s', u) := Insert(s, data.email, c.hashPassword(data.password), data.fullName,
                              UserSchema.RoleName(data.role), now);
        Step(s', ToResponse(u))
  }

  /** `GET /auth/me`: the user whose id is the token's `sub`, or UserNotFound; a `sub`
      outside the 64-bit range cannot be bound into the lookup. */
  function Me(c: Crypto, s: Users, credentials: Option<string>): (r: Result<UserSchema.UserResponse, Raised>)
    ensures credentials.None? ==> r == Err(NotAuthenticatedError())
    ensures credentials.Some? && c.verifyToken(credentials.value).None? ==> r == Err(InvalidTokenError())
    ensures credentials.Some? && c.verifyToken(credentials.value).Some? ==>
      var p := c.verifyToken(credentials.value).value;
      && (SubjectId(p).Err? ==> r == Err(SubjectId(p).error))
      && (SubjectId(p).Ok? && !Table.InInt64(SubjectId(p).value) ==> r == Err(Internal(OverflowError)))
      && (SubjectId(p).Ok? && Table.InInt64(SubjectId(p).value) && SubjectId(p).value in s.rows ==>
            r == ToResponse(s.rows[SubjectId(p).value]))
      && (SubjectId(p).Ok? && Table.InInt64(SubjectId(p).value) && SubjectId(p).value !in s.rows ==>
            r == Err(UserNotFoundError()))
    ensures r.Ok? ==> credentials.Some? && c.verifyToken(credentials.value).Some?
    ensures r.Ok? ==>
      var p := c.verifyToken(credentials.value).value;
      && "sub" in p && ParseInt(p["sub"]).Some? && ParseInt(p["sub"]).value in s.rows
      && ToResponse(s.rows[ParseInt(p["sub"]).value]) == r
    ensures credentials.Some? && c.verifyToken(credentials.value).Some? ==>
      var p := c.verifyToken(credentials.value).value;
      && "sub" in p && ParseInt(p["sub"]).Some? && Table.InInt64(ParseInt(p["sub"]).value)
      && ParseInt(p["sub"]).value !in s.rows
      ==> r == Err(UserNotFoundError())
  {
    var user :- GetCurrentUser(c, credentials);
    var sub :- SubjectId(user);
    var id :- Table.Bind(sub);
    match FindById(s, id)
    case None => Err(UserNotFoundError())
    case Some(u) => ToResponse(u)
  }

  /** A token issued at login leads `/auth/me` back to the user who logged in. */
  lemma LoginThenMe(c: Crypto, s: Users, req: UserSchema.UserLoginRequest)
    requires Valid(s) && KeysFit(s) && TokensRoundTrip(c)
    requires Login(c, s, req).result.Ok?
    ensures var resp := Login(c, s, req).result.value;
            Me(c, s, Some(resp.accessToken)) == ToResponse(s.rows[resp.userId])
  {
    var resp := Login(c, s, req).result.value;
    var u := s.rows[resp.userId];
    var p := c.verifyToken(c.createAccessToken(Claims(u))).value;
    assert Extends(p, Claims(u));
    assert "sub" in Claims(u);
    ParseIntToString(u.id);
  }

  /** A user who has just registered can log in with the same email and password, and the
      token carries the role they registered with. */
  lemma RegisterThenLogin(c: Crypto, s: Users, req: UserSchema.UserCreateRequest, now: int)
    requires Valid(s) && PasswordsVerify(c)
    requires Register(c, s, req, now).result.Ok?
    ensures var s' := Register(c, s, req, now).store;
            var o := Login(c, s', UserSchema.UserLoginRequest(req.email, req.password));
            && o.result.Ok?
            && o.result.value.userId == s.nextId
            && o.result.value.role == req.role.GetOr("user")
  {
    var s' := Register(c, s, req, now).store;
    var u := s'.rows[s.nextId];
    assert u.email == req.email.value;
    assert c.verifyPassword(req.password.value, u.passwordHash);
    var login := UserSchema.UserLoginRequest(req.email, req.password);
    assert UserSchema.ValidateUserLogin(login).Ok?;
    var found := FindByEmail(s', req.email.value);
    assert found.Some?;
    assert found.value.id == s.nextId;
  }

  /** As the handlers are written, a password the strength validator rejects is answered
      with a 500: the validation details hold the validator's `ValueError`, which cannot be
      serialised. Encoded, the same request is the intended 422. */
  lemma WeakPasswordRegisterIs500AsWritten(c: Crypto, s: Users, email: string, now: int)
    requires Valid(s)
    ensures var o := Register(c, s, UserSchema.UserCreateRequest(Some(email), Some("Password"), None, UserSchema.Absent), now);
            && o.store == s
            && o.result.Err? && o.result.error.RequestInvalid?
            && ErrorHandlers.RenderAsWritten(o.result.error) == ErrorHandlers.Render(Internal(TypeError))
            && ErrorHandlers.RenderAsWritten(o.result.error).status == 500
            && ErrorHandlers.Render(o.result.error).status == 422
  {
    var req := UserSchema.UserCreateRequest(Some(email), Some("Password"), None, UserSchema.Absent);
    assert UserSchema.Lower("Password") == "password";
    var issues := UserSchema.ValidateUserCreate(req).error;
    assert issues == [Issue("password", Rejected("Пароль слишком прост"))];
    assert issues[0].rule.Rejected?;
  }

  /** Registering with a taken email changes nothing, whatever else the request holds. */
  lemma DuplicateRegisterRendersEmailExists(c: Crypto, s: Users, req: UserSchema.UserCreateRequest, now: int)
    requires Valid(s)
    requires UserSchema.ValidateUserCreate(req).Ok? && EmailTaken(s, req.email.value)
    ensures Register(c, s, req, now).store == s
    ensures Register(c, s, req, now).result == Err(Api(409, "Email already registered", "EMAIL_EXISTS"))
  {
  }

  /** Registration never introduces a role outside `UserRole`. */
  lemma RegisterKeepsRolesValid(c: Crypto, s: Users, req: UserSchema.UserCreateRequest, now: int)
    requires Valid(s) && RolesValid(s)
    ensures RolesValid(Register(c, s, req, now).store)
  {
    var o := Register(c, s, req, now);
    if o.result.Ok? {
      var data := UserSchema.ValidateUserCreate(req).value;
      UserSchema.RoleNamesExact(req.role.GetOr("user"), data.role);
    }
  }
}

=== FILE: decimal.dfy ===
/** Python's `str(n)` and `int(s)` on integers, as far as the token's `sub` claim needs
    them: login writes `str(user.id)` into the token and every protected handler reads the
    id back with `int(current_user["sub"])`. */
module Decimal {
  import opened Wrappers

  predicate IsDigit(c: char) {
    '0' <= c <= '9'
  }

  function DigitValue(c: char): (d: nat)
    requires IsDigit(c)
    ensures d < 10
  {
    (c as int) - ('0' as int)
  }

  function DigitChar(d: nat): (c: char)
    requires d < 10
    ensures IsDigit(c) && DigitValue(c) == d
  {
    (('0' as int) + d) as char
  }

  /** Decimal digits of `n`, most significant first, with no leading zero. */
  function NatToString(n: nat): (s: string)
    ensures |s| >= 1
    ensures forall i :: 0 <= i < |s| ==> IsDigit(s[i])
    ensures |s| > 1 ==> s[0] != '0'
  {
    if n < 10 then [DigitChar(n)] else NatToString(n / 10) + [DigitChar(n % 10)]
  }

  /** `str(n)` for a Python int. */
  function IntToString(n: int): (s: string)
    ensures |s| >= 1
    ensures n >= 0 ==> IsDigit(s[0])
    ensures n < 0 ==> s[0] == '-'
  {
    if n < 0 then "-" + NatToString(-n) else NatToString(n)
  }

  /** Value of a non-empty run of digits (leading zeros allowed, as `int("007") == 7`). */
  function DigitsValue(s: string): nat
    requires forall i :: 0 <= i < |s| ==> IsDigit(s[i])
  {
    if |s| == 0 then 0 else DigitsValue(s[..|s| - 1]) * 10 + DigitValue(s[|s| - 1])
  }

  predicate AllDigits(s: string) {
    |s| >= 1 && forall i :: 0 <= i < |s| ==> IsDigit(s[i])
  }

  /** `int(s)`: an optional sign followed by at least one digit; anything else raises
      ValueError, modelled as None. */
  function ParseInt(s: string): (r: Option<int>)
    ensures r.Some? <==> AllDigits(s) || (|s| >= 2 && s[0] in "+-" && AllDigits(s[1..]))
  {
    if |s| >= 1 && s[0] == '-' then
      if AllDigits(s[1..]) then Some(0 - DigitsValue(s[1..]) as int) else None
    else if |s| >= 1 && s[0] == '+' then
      if AllDigits(s[1..]) then Some(DigitsValue(s[1..])) else None
    else if AllDigits(s) then Some(DigitsValue(s))
    else None
  }

  lemma {:induction false} DigitsOfNat(n: nat)
    ensures DigitsValue(NatToString(n)) == n
    decreases n
  {
    var s := NatToString(n);
    if n >= 10 {
      DigitsOfNat(n / 10);
      assert s[..|s| - 1] == NatToString(n / 10);
    }
  }

  /** The `sub` claim round trip: `int(str(n)) == n` for every integer. */
  lemma ParseIntToString(n: int)
    ensures ParseInt(IntToString(n)) == Some(n)
  {
    var s := IntToString(n);
    if n < 0 {
      assert s[1..] == NatToString(-n);
      DigitsOfNat(-n);
    } else {
      DigitsOfNat(n);
    }
  }

  /** Distinct ids give distinct `sub` claims. */
  lemma IntToStringInjective(a: int, b: int)
    requires IntToString(a) == IntToString(b)
    ensures a == b
  {
    ParseIntToString(a);
    ParseIntToString(b);
  }
}

=== FILE: dependencies.dfy ===
/** The FastAPI dependencies of backend/app/core/dependencies.py: resolving the caller's
    token into a payload, and the role checks run on that payload before a handler. */
module Dependencies {
  import opened Wrappers
  import opened Exceptions
  import opened Security
  import opened Decimal
  import ErrorHandlers

  /** The error for a token that does not verify, as the handler table intends it: a 401
      with the detail and code the table lists for "Invalid token". */
  function InvalidTokenError(): (e: Raised)
    ensures e == Api(401, "Invalid token", "INVALID_TOKEN")
  {
    RaiseBase(Unauthorized, Args(Some("Invalid token"), Some("INVALID_TOKEN")))
  }

  /** `get_current_user` as written: a token that fails verification reaches
      `NotAuthenticatedException(detail="Invalid token")`, a constructor that takes no
      arguments, so the request ends in a TypeError instead of a 401. */
  function GetCurrentUserAsWritten(c: Crypto, credentials: Option<string>): (r: Result<Payload, Raised>)
    ensures credentials.None? ==> r == Err(NotAuthenticatedError())
    ensures credentials.Some? && c.verifyToken(credentials.value).None? ==> r == Err(Internal(TypeError))
    ensures r.Ok? ==> credentials.Some? && c.verifyToken(credentials.value) == Some(r.value)
  {
    if credentials.None? then Err(RaiseDomain(NotAuthenticated, NoArgs))
    else match c.verifyToken(credentials.value)
      case None => Err(RaiseDomain(NotAuthenticated, Args(Some("Invalid token"), None)))
      case Some(payload) => Ok(payload)
  }

  /** `get_current_user` with the invalid-token branch raising a 401. Missing credentials
      and unverifiable tokens are refused; a payload is returned only when the token
      verified to it. `HTTPBearer()` keeps `auto_error`, so a request without the header is
      refused by HTTPBearer itself with an HTTPException "Not authenticated" before this code
      runs (403 in older FastAPI releases, 401 in newer ones); the `credentials.None?` branch
      stands for that refusal, as the 401 NotAuthenticated. */
  function GetCurrentUser(c: Crypto, credentials: Option<string>): (r: Result<Payload, Raised>)
    ensures credentials.None? ==> r == Err(NotAuthenticatedError())
    ensures credentials.Some? && c.verifyToken(credentials.value).None? ==> r == Err(InvalidTokenError())
    ensures r.Ok? <==> credentials.Some? && c.verifyToken(credentials.value).Some?
    ensures r.Ok? ==> c.verifyToken(credentials.value) == Some(r.value)
  {
    if credentials.None? then Err(RaiseDomain(NotAuthenticated, NoArgs))
    else match c.verifyToken(credentials.value)
      case None => Err(InvalidTokenError())
      case Some(payload) => Ok(payload)
  }

  /** As written, an unverifiable token is answered with a 500 INTERNAL_ERROR. */
  lemma InvalidTokenAsWrittenIs500(c: Crypto, token: string)
    requires c.verifyToken(token).None?
    ensures GetCurrentUserAsWritten(c, Some(token)).Err?
    ensures ErrorHandlers.Render(GetCurrentUserAsWritten(c, Some(token)).error).status == 500
    ensures ErrorHandlers.ErrorCode(ErrorHandlers.Render(GetCurrentUserAsWritten(c, Some(token)).error)) == "INTERNAL_ERROR"
  {
  }

  /** With the correction, an unverifiable token is answered with 401 INVALID_TOKEN, and
      the two versions agree on every other input. */
  lemma InvalidTokenIs401(c: Crypto, credentials: Option<string>)
    ensures credentials.Some? && c.verifyToken(credentials.value).None? ==>
      && GetCurrentUser(c, credentials).Err?
      && ErrorHandlers.Render(GetCurrentUser(c, credentials).error).status == 401
      && ErrorHandlers.ErrorCode(ErrorHandlers.Render(GetCurrentUser(c, credentials).error)) == "INVALID_TOKEN"
    ensures credentials.None? || c.verifyToken(credentials.value).Some? ==>
      GetCurrentUser(c, credentials) == GetCurrentUserAsWritten(c, credentials)
  {
  }

  /** `current_user.get("role")`. */
  function RoleOf(user: Payload): Option<string> {
    Lookup(user, "role")
  }

  /** `require_role(required)`'s `role_checker`: admin passes whatever is required,
      any other caller passes only with exactly the required role. */
  function RequireRole(required: string, user: Payload): (r: Result<Payload, Raised>)
    ensures r.Ok? <==> "role" in user && (user["role"] == "admin" || user["role"] == required)
    ensures r.Ok? ==> r.value == user
    ensures r.Err? ==> r.error == Api(403, "Requires " + required + " role", "FORBIDDEN")
  {
    var role := RoleOf(user);
    if role == Some("admin") then Ok(user)
    else if role != Some(required) then Err(ForbiddenError("Requires " + required + " role"))
    else Ok(user)
  }

  /** The module-level `require_admin`: only admin passes. */
  function RequireAdmin(user: Payload): (r: Result<Payload, Raised>)
    ensures r.Ok? <==> "role" in user && user["role"] == "admin"
    ensures r.Ok? ==> r.value == user
    ensures r.Err? ==> r.error == Api(403, "Admin access required", "FORBIDDEN")
  {
    if RoleOf(user) != Some("admin") then Err(ForbiddenError("Admin access required")) else Ok(user)
  }

  /** `require_operator_or_admin`. */
  function RequireOperatorOrAdmin(user: Payload): (r: Result<Payload, Raised>)
    ensures r.Ok? <==> "role" in user && (user["role"] == "operator" || user["role"] == "admin")
    ensures r.Ok? ==> r.value == user
    ensures r.Err? ==> r.error == Api(403, "Operator or admin access required", "FORBIDDEN")
  {
    var role := RoleOf(user);
    if role != Some("operator") && role != Some("admin") then
      Err(ForbiddenError("Operator or admin access required"))
    else Ok(user)
  }

  /** Admin is a universal role. */
  lemma AdminPassesEveryRole(user: Payload, required: string)
    requires RoleOf(user) == Some("admin")
    ensures RequireRole(required, user) == Ok(user)
    ensures RequireAdmin(user) == Ok(user)
    ensures RequireOperatorOrAdmin(user) == Ok(user)
  {
  }

  /** There is no hierarchy below admin: a caller passing two different requirements is an
      admin. */
  lemma NoHierarchyBelowAdmin(user: Payload, r1: string, r2: string)
    requires r1 != r2
    requires RequireRole(r1, user).Ok? && RequireRole(r2, user).Ok?
    ensures RoleOf(user) == Some("admin")
  {
  }

  /** `require_admin` lets through exactly those `require_role("admin")` lets through;
      only the refusal's detail differs. */
  lemma RequireAdminAgreesWithRequireRole(user: Payload)
    ensures RequireAdmin(user) == RequireRole("admin", user) || (RequireAdmin(user).Err? && RequireRole("admin", user).Err?)
    ensures RequireAdmin(user).Ok? <==> RequireRole("admin", user).Ok?
  {
  }

  /** `require_operator_or_admin` passes the same callers as `require_role("operator")`;
      user and manager are refused. */
  lemma OperatorOrAdminIsRequireOperator(user: Payload)
    ensures RequireOperatorOrAdmin(user).Ok? <==> RequireRole("operator", user).Ok?
    ensures RoleOf(user) == Some("user") || RoleOf(user) == Some("manager") ==> RequireOperatorOrAdmin(user).Err?
  {
  }

  /** `int(current_user["sub"])`: a payload without "sub" raises KeyError, a non-numeric
      one ValueError. */
  function SubjectId(user: Payload): (r: Result<int, Raised>)
    ensures "sub" !in user ==> r == Err(Internal(KeyError))
    ensures "sub" in user ==> (r.Ok? <==> ParseInt(user["sub"]).Some?)
    ensures r.Ok? ==> ParseInt(user["sub"]) == Some(r.value)
    ensures r.Err? && "sub" in user ==> r == Err(Internal(ValueError))
  {
    match Lookup(user, "sub")
    case None => Err(Internal(KeyError))
    case Some(sub) =>
      match ParseInt(sub)
      case None => Err(Internal(ValueError))
      case Some(id) => Ok(id)
  }
}

=== FILE: error_handlers.dfy ===
/** The five handlers registered by `setup_exception_handlers`, as one total function from
    the exception a request ended in to the HTTP status and JSON body sent back. */
module ErrorHandlers {
  import opened Wrappers
  import opened Exceptions

  datatype Json =
    | JNull
    | JString(s: string)
    | JInt(n: int)
    | JArray(items: seq<Json>)
    | JObject(fields: map<string, Json>)

  datatype Response = Response(status: int, body: Json)

  /** The detail-to-code table used for plain HTTPExceptions. */
  const ErrorMapping: map<string, string> := map[
    "Not authenticated" := "NOT_AUTHENTICATED",
    "Invalid token" := "INVALID_TOKEN",
    "Forbidden" := "FORBIDDEN",
    "User not found" := "USER_NOT_FOUND",
    "Email already registered" := "EMAIL_EXISTS",
    "Invalid credentials" := "INVALID_CREDENTIALS"
  ]

  /** `error_mapping.get(detail, "HTTP_ERROR")`. */
  function CodeForDetail(detail: string): (code: string)
    ensures detail in ErrorMapping ==> code == ErrorMapping[detail]
    ensures detail !in ErrorMapping ==> code == "HTTP_ERROR"
  {
    Lookup(ErrorMapping, detail).GetOr("HTTP_ERROR")
  }

  function IssueJson(i: Issue): Json {
    var rule := match i.rule
      case Missing => "missing"
      case TooShort(_) => "string_too_short"
      case TooLong(_) => "string_too_long"
      case TooSmall(_) => "greater_than_equal"
      case TooLarge(_) => "less_than_equal"
      case NotInEnum => "enum"
      case Rejected(_) => "value_error";
    JObject(map["loc" := JString(i.field), "type" := JString(rule)])
  }

  function IssuesJson(issues: seq<Issue>): (j: Json)
    ensures j.JArray? && |j.items| == |issues|
  {
    JArray(seq(|issues|, k requires 0 <= k < |issues| => IssueJson(issues[k])))
  }

  /** `{"error": {"code": ..., "message": ..., "details": ...}}` */
  function ErrorBody(code: string, message: string, details: Json): Json {
    JObject(map["error" := JObject(map["code" := JString(code), "message" := JString(message), "details" := details])])
  }

  /** The issue list carries a `ValueError` raised by a field validator: pydantic puts the
      exception object itself into that entry's `ctx`. */
  predicate CarriesValidatorError(issues: seq<Issue>) {
    exists k :: 0 <= k < |issues| && issues[k].rule.Rejected?
  }

  /** Which handler catches the exception and what it sends back, as the handlers are
      written. The validation handler puts `exc.errors()` into the response unencoded; when an
      entry's `ctx` holds a `ValueError`, serialising the body raises, and the request falls
      through to the catch-all handler. */
  function RenderAsWritten(e: Raised): (r: Response)
    ensures e.Api? ==> r == Response(e.status, ErrorBody(e.errorCode, e.detail, JNull))
    ensures e.Http? ==> r == Response(e.status, ErrorBody(CodeForDetail(e.detail), e.detail, JNull))
    ensures e.RequestInvalid? && !CarriesValidatorError(e.issues) ==>
      r.status == 422 && ErrorCode(r) == "VALIDATION_ERROR" && ErrorDetails(r) == IssuesJson(e.issues)
    ensures e.RequestInvalid? && CarriesValidatorError(e.issues) ==>
      r == Response(500, ErrorBody("INTERNAL_ERROR", "Internal server error", JNull))
    ensures e.Database? ==> r == Response(500, ErrorBody("DATABASE_ERROR", "Internal server error", JNull))
    ensures e.Internal? ==> r == Response(500, ErrorBody("INTERNAL_ERROR", "Internal server error", JNull))
  {
    match e
    case RequestInvalid(issues) =>
      if CarriesValidatorError(issues) then Render(Internal(TypeError))
      else Render(e)
    case _ => Render(e)
  }

  /** The handlers with the validation details passed through `jsonable_encoder`, which turns
      the `ValueError` into its message: every validation error is a 422. */
  function Render(e: Raised): (r: Response)
    ensures e.Api? ==> r == Response(e.status, ErrorBody(e.errorCode, e.detail, JNull))
    ensures e.Http? ==> r == Response(e.status, ErrorBody(CodeForDetail(e.detail), e.detail, JNull))
    ensures e.RequestInvalid? ==>
      r.status == 422 && ErrorCode(r) == "VALIDATION_ERROR" && ErrorDetails(r) == IssuesJson(e.issues)
    ensures e.Database? ==> r == Response(500, ErrorBody("DATABASE_ERROR", "Internal server error", JNull))
    ensures e.Internal? ==> r == Response(500, ErrorBody("INTERNAL_ERROR", "Internal server error", JNull))
  {
    match e
    case Api(status, detail, code) => Response(status, ErrorBody(code, detail, JNull))
    case Http(status, detail) => Response(status, ErrorBody(CodeForDetail(detail), detail, JNull))
    case RequestInvalid(issues) =>
      Response(422, ErrorBody("VALIDATION_ERROR", "Invalid request data", IssuesJson(issues)))
    case Database(_) => Response(500, ErrorBody("DATABASE_ERROR", "Internal server error", JNull))
    case Internal(_) => Response(500, ErrorBody("INTERNAL_ERROR", "Internal server error", JNull))
  }

  /** The two differ only on validation errors that carry a validator's `ValueError`: those
      are 500 as written and 422 once encoded. */
  lemma AsWrittenDiffersOnlyOnValidatorErrors(e: Raised)
    ensures RenderAsWritten(e) != Render(e) <==> e.RequestInvalid? && CarriesValidatorError(e.issues)
    ensures e.RequestInvalid? && CarriesValidatorError(e.issues) ==>
      RenderAsWritten(e).status == 500 && Render(e).status == 422
  {
  }

  /** The `error` object of a rendered body, when it has the uniform shape. */
  predicate WellShaped(body: Json) {
    && body.JObject?
    && body.fields.Keys == {"error"}
    && body.fields["error"].JObject?
    && body.fields["error"].fields.Keys == {"code", "message", "details"}
    && body.fields["error"].fields["code"].JString?
    && body.fields["error"].fields["message"].JString?
  }

  function ErrorCode(r: Response): string {
    if WellShaped(r.body) then r.body.fields["error"].fields["code"].s else ""
  }

  function ErrorMessage(r: Response): string {
    if WellShaped(r.body) then r.body.fields["error"].fields["message"].s else ""
  }

  function ErrorDetails(r: Response): Json {
    if WellShaped(r.body) then r.body.fields["error"].fields["details"] else JNull
  }

  /** Every rendered body is exactly `{"error": {code, message, details}}`, with string code
      and message. */
  lemma RenderWellShaped(e: Raised)
    ensures WellShaped(Render(e).body)
    ensures WellShaped(RenderAsWritten(e).body)
  {
  }

  /** A BaseAPIException keeps its own status, code and detail; details is null. */
  lemma RenderApi(e: Raised)
    requires e.Api?
    ensures Render(e).status == e.status
    ensures ErrorCode(Render(e)) == e.errorCode && ErrorMessage(Render(e)) == e.detail
    ensures ErrorDetails(Render(e)) == JNull
  {
  }

  /** A plain HTTPException keeps its status; its code comes from the table, or HTTP_ERROR. */
  lemma RenderHttp(status: int, detail: string)
    ensures Render(Http(status, detail)).status == status
    ensures ErrorMessage(Render(Http(status, detail))) == detail
    ensures detail in ErrorMapping ==> ErrorCode(Render(Http(status, detail))) == ErrorMapping[detail]
    ensures detail !in ErrorMapping ==> ErrorCode(Render(Http(status, detail))) == "HTTP_ERROR"
  {
  }

  /** Validation errors are the only ones whose details are not null; as written, those that
      carry a validator's error lose them too, since they end in the catch-all handler. */
  lemma OnlyValidationHasDetails(e: Raised)
    ensures ErrorDetails(Render(e)) != JNull <==> e.RequestInvalid?
    ensures e.RequestInvalid? ==> ErrorMessage(Render(e)) == "Invalid request data"
    ensures ErrorDetails(RenderAsWritten(e)) != JNull <==> e.RequestInvalid? && !CarriesValidatorError(e.issues)
  {
  }

  /** Database and other errors are both 500 with a fixed message: the exception's own
      text never reaches the body. */
  lemma ServerErrorsHideText(m1: string, m2: string, p1: PyError, p2: PyError)
    ensures Render(Database(m1)) == Render(Database(m2))
    ensures Render(Internal(p1)) == Render(Internal(p2))
    ensures Render(Database(m1)).status == 500 && ErrorCode(Render(Database(m1))) == "DATABASE_ERROR"
    ensures Render(Internal(p1)).status == 500 && ErrorCode(Render(Internal(p1))) == "INTERNAL_ERROR"
  {
  }

  /** For every domain exception the table agrees with the exception's own code, so a domain
      detail renders the same code whichever handler catches it. */
  lemma TableAgreesWithDomainCodes(d: DomainKind)
    ensures FixedDetail(d) in ErrorMapping && ErrorMapping[FixedDetail(d)] == FixedCode(d)
    ensures ErrorCode(Render(Http(StatusOf(Parent(d)), FixedDetail(d)))) == ErrorCode(Render(RaiseDomain(d, NoArgs)))
  {
  }
}

=== FILE: exceptions.dfy ===
/** The exceptions a request can end in: the `BaseAPIException` hierarchy of
    backend/app/core/exceptions.py, FastAPI's plain `HTTPException`, request-validation
    errors, database errors and any other Python exception. */
module Exceptions {
  import opened Wrappers

  /** The five direct subclasses of `BaseAPIException`; each fixes an HTTP status. */
  datatype BaseKind = NotFound | Unauthorized | BadRequest | Conflict | Forbidden

  /** The four domain exceptions; each is a subclass of one base kind. */
  datatype DomainKind = UserNotFound | EmailAlreadyExists | InvalidCredentials | NotAuthenticated

  function StatusOf(b: BaseKind): int {
    match b
    case NotFound => 404
    case Unauthorized => 401
    case BadRequest => 400
    case Conflict => 409
    case Forbidden => 403
  }

  function DefaultDetail(b: BaseKind): string {
    match b
    case NotFound => "Resource not found"
    case Unauthorized => "Unauthorized"
    case BadRequest => "Bad request"
    case Conflict => "Resource already exists"
    case Forbidden => "Forbidden"
  }

  function DefaultCode(b: BaseKind): string {
    match b
    case NotFound => "NOT_FOUND"
    case Unauthorized => "UNAUTHORIZED"
    case BadRequest => "BAD_REQUEST"
    case Conflict => "CONFLICT"
    case Forbidden => "FORBIDDEN"
  }

  /** The class each domain exception extends. */
  function Parent(d: DomainKind): BaseKind {
    match d
    case UserNotFound => NotFound
    case EmailAlreadyExists => Conflict
    case InvalidCredentials => Unauthorized
    case NotAuthenticated => Unauthorized
  }

  /** The detail each domain constructor passes to its parent. */
  function FixedDetail(d: DomainKind): string {
    match d
    case UserNotFound => "User not found"
    case EmailAlreadyExists => "Email already registered"
    case InvalidCredentials => "Invalid credentials"
    case NotAuthenticated => "Not authenticated"
  }

  /** The error code each domain constructor passes to its parent. */
  function FixedCode(d: DomainKind): string {
    match d
    case UserNotFound => "USER_NOT_FOUND"
    case EmailAlreadyExists => "EMAIL_EXISTS"
    case InvalidCredentials => "INVALID_CREDENTIALS"
    case NotAuthenticated => "NOT_AUTHENTICATED"
  }

  /** Python exceptions outside the API hierarchy that the handlers can raise. */
  datatype PyError =
    | TypeError          // a constructor called with arguments it does not accept
    | KeyError           // `current_user["sub"]` on a payload without "sub"
    | ValueError         // `int(sub)` on a non-numeric claim
    | ResponseInvalid    // a returned row that does not fit the declared response model
    | OverflowError      // an integer parameter the SQLite driver cannot bind as 64 bits

  /** One entry of a `RequestValidationError`: the offending field and the rule it broke. */
  datatype Issue = Issue(field: string, rule: Rule)
  datatype Rule =
    | Missing
    | TooShort(minLength: nat)
    | TooLong(maxLength: nat)
    | TooSmall(min: int)
    | TooLarge(max: int)
    | NotInEnum
    | Rejected(message: string)   // a `ValueError` raised by a field validator

  /** What a request can end in instead of a response body. */
  datatype Raised =
    | Api(status: int, detail: string, errorCode: string)   // a BaseAPIException
    | Http(status: int, detail: string)                     // a plain HTTPException
    | RequestInvalid(issues: seq<Issue>)                    // RequestValidationError
    | Database(message: string)                             // SQLAlchemyError
    | Internal(error: PyError)                              // any other exception

  /** What a handler that may write to a table ends in: the table afterwards, and the
      response or the exception raised instead. */
  datatype Step<S, T> = Step(store: S, result: Result<T, Raised>)

  /** Keyword arguments passed to an exception constructor (None: left out). */
  datatype Args = Args(detail: Option<string>, errorCode: Option<string>)

  const NoArgs: Args := Args(None, None)

  /** `NotFoundException(...)`, `UnauthorizedException(...)`, ...: the status comes from
      the class; omitted arguments take the class defaults. */
  function RaiseBase(b: BaseKind, args: Args): (e: Raised)
    ensures e.Api? && e.status == StatusOf(b)
    ensures e.detail == if args.detail.Some? then args.detail.value else DefaultDetail(b)
    ensures e.errorCode == if args.errorCode.Some? then args.errorCode.value else DefaultCode(b)
  {
    Api(StatusOf(b), args.detail.GetOr(DefaultDetail(b)), args.errorCode.GetOr(DefaultCode(b)))
  }

  /** `UserNotFoundException()`, ...: the domain constructors take no arguments, so any
      keyword argument makes the call itself fail with a TypeError. */
  function RaiseDomain(d: DomainKind, args: Args): (e: Raised)
    ensures args != NoArgs <==> e == Internal(TypeError)
    ensures args == NoArgs ==> e.Api? && e.status == StatusOf(Parent(d))
  {
    if args != NoArgs then Internal(TypeError)
    else RaiseBase(Parent(d), Args(Some(FixedDetail(d)), Some(FixedCode(d))))
  }

  function UserNotFoundError(): (e: Raised)
    ensures e == Api(404, "User not found", "USER_NOT_FOUND")
  {
    RaiseDomain(UserNotFound, NoArgs)
  }

  function EmailExistsError(): (e: Raised)
    ensures e == Api(409, "Email already registered", "EMAIL_EXISTS")
  {
    RaiseDomain(EmailAlreadyExists, NoArgs)
  }

  function InvalidCredentialsError(): (e: Raised)
    ensures e == Api(401, "Invalid credentials", "INVALID_CREDENTIALS")
  {
    RaiseDomain(InvalidCredentials, NoArgs)
  }

  function NotAuthenticatedError(): (e: Raised)
    ensures e == Api(401, "Not authenticated", "NOT_AUTHENTICATED")
  {
    RaiseDomain(NotAuthenticated, NoArgs)
  }

  /** `ForbiddenException(detail=...)` with the default error code. */
  function ForbiddenError(detail: string): (e: Raised)
    ensures e == Api(403, detail, "FORBIDDEN")
  {
    RaiseBase(Forbidden, Args(Some(detail), None))
  }

  /** Whatever detail and code a base exception is given, its status is its class's. */
  lemma BaseStatusFixed(b: BaseKind, args: Args)
    ensures RaiseBase(b, args).status == StatusOf(b)
    ensures b == NotFound ==> RaiseBase(b, args).status == 404
    ensures b == Unauthorized ==> RaiseBase(b, args).status == 401
    ensures b == BadRequest ==> RaiseBase(b, args).status == 400
    ensures b == Conflict ==> RaiseBase(b, args).status == 409
    ensures b == Forbidden ==> RaiseBase(b, args).status == 403
  {
  }

  /** A domain exception raised correctly has its parent's status, detail and code as fixed
      by its constructor; the status is the same as the parent raised with no arguments. */
  lemma DomainInheritsStatus(d: DomainKind)
    ensures RaiseDomain(d, NoArgs) == Api(StatusOf(Parent(d)), FixedDetail(d), FixedCode(d))
    ensures RaiseDomain(d, NoArgs).status == RaiseBase(Parent(d), NoArgs).status
  {
  }
}

=== FILE: security.dfy ===
/** The four primitives of `app.core.security`, which is not part of this model. They are
    kept uninterpreted: a `Crypto` value bundles one choice of each, every handler takes it
    as a parameter, and what a proof needs of them is stated as an explicit hypothesis. */
module Security {
  import opened Wrappers

  /** The decoded claims of a token, as the dict `verify_token` returns. */
  type Payload = map<string, string>

  datatype Crypto = Crypto(
    hashPassword: string -> string,
    verifyPassword: (string, string) -> bool,
    createAccessToken: Payload -> string,
    verifyToken: string -> Option<Payload>)

  /** `p` carries every claim of `d` with the same value (verification may add more, such
      as the expiry). */
  predicate Extends(p: Payload, d: Payload) {
    forall k :: k in d ==> k in p && p[k] == d[k]
  }

  /** Hypothesis: a password verifies against its own hash. */
  ghost predicate PasswordsVerify(c: Crypto) {
    forall p :: c.verifyPassword(p, c.hashPassword(p))
  }

  /** Hypothesis: a freshly issued token verifies, and gives back the claims it was issued
      with. Expiry is decided inside `verify_token` and is outside this hypothesis. */
  ghost predicate TokensRoundTrip(c: Crypto) {
    forall d :: c.verifyToken(c.createAccessToken(d)).Some? && Extends(c.verifyToken(c.createAccessToken(d)).value, d)
  }
}

=== FILE: table.dfy ===
/** Reading a table stored as a map from primary key to row. A query without ORDER BY is
    modelled as returning rows in ascending key order. */
module Table {
  import opened Wrappers
  import opened Exceptions

  /** SQLite stores an INTEGER, and its driver binds a Python int, as a signed 64-bit value. */
  const MinInt64: int := -0x8000_0000_0000_0000
  const MaxInt64: int := 0x7FFF_FFFF_FFFF_FFFF

  predicate InInt64(n: int) {
    MinInt64 <= n <= MaxInt64
  }

  /** Binding an integer query parameter: outside the signed 64-bit range the driver raises
      `OverflowError` before the statement runs; inside it the value is passed unchanged. */
  function Bind(n: int): (r: Result<int, Raised>)
    ensures r.Ok? <==> -9223372036854775808 <= n <= 9223372036854775807
    ensures r.Ok? ==> r.value == n
    ensures r.Err? ==> r.error == Internal(OverflowError)
  {
    if InInt64(n) then Ok(n) else Err(Internal(OverflowError))
  }

  /** The rows whose keys lie in [lo, hi), in ascending key order. */
  function Scan<T(!new)>(m: map<int, T>, lo: int, hi: int): (rows: seq<T>)
    ensures forall t :: t in rows <==> exists k :: lo <= k < hi && k in m && m[k] == t
    decreases hi - lo
  {
    if lo >= hi then []
    else if lo in m then [m[lo]] + Scan(m, lo + 1, hi)
    else Scan(m, lo + 1, hi)
  }

  /** The keys of m in [lo, hi). */
  function KeysIn<T>(m: map<int, T>, lo: int, hi: int): set<int> {
    set k | k in m && lo <= k < hi
  }

  /** A scan returns one row per key in its range. */
  lemma {:induction false} ScanCount<T(!new)>(m: map<int, T>, lo: int, hi: int)
    ensures |Scan(m, lo, hi)| == |KeysIn(m, lo, hi)|
    decreases hi - lo
  {
    if lo >= hi {
      assert KeysIn(m, lo, hi) == {};
    } else {
      ScanCount(m, lo + 1, hi);
      if lo in m {
        assert KeysIn(m, lo, hi) == KeysIn(m, lo + 1, hi) + {lo};
      } else {
        assert KeysIn(m, lo, hi) == KeysIn(m, lo + 1, hi);
      }
    }
  }

  /** A scan over a range holding every key returns as many rows as the map has entries. */
  lemma ScanCountAll<T(!new)>(m: map<int, T>, lo: int, hi: int)
    requires forall k :: k in m ==> lo <= k < hi
    ensures |Scan(m, lo, hi)| == |m|
  {
    ScanCount(m, lo, hi);
    assert KeysIn(m, lo, hi) == m.Keys;
  }

  /** The rows come in strictly ascending order of `key`: each key at most once. */
  predicate Ascending<T>(rows: seq<T>, key: T -> int) {
    forall i, j :: 0 <= i < j < |rows| ==> key(rows[i]) < key(rows[j])
  }

  /** When every row carries its own key, a scan returns keys inside its range, in
      ascending order. */
  lemma {:induction false} ScanAscending<T(!new)>(m: map<int, T>, lo: int, hi: int, key: T -> int)
    requires forall k :: k in m ==> key(m[k]) == k
    ensures forall i :: 0 <= i < |Scan(m, lo, hi)| ==> lo <= key(Scan(m, lo, hi)[i]) < hi
    ensures Ascending(Scan(m, lo, hi), key)
    decreases hi - lo
  {
    var r := Scan(m, lo, hi);
    forall i | 0 <= i < |r| ensures lo <= key(r[i]) < hi {
      assert r[i] in r;
    }
    if lo < hi {
      ScanAscending(m, lo + 1, hi, key);
      var rest := Scan(m, lo + 1, hi);
      if lo in m {
        assert r == [m[lo]] + rest;
        forall i, j | 0 <= i < j < |r| ensures key(r[i]) < key(r[j]) {
          assert r[j] == rest[j - 1];
          if i > 0 {
            assert r[i] == rest[i - 1];
          }
        }
      }
    }
  }

  /** A WHERE clause: the rows satisfying `keep`, in their original order. */
  function Where<T(!new)>(rows: seq<T>, keep: T -> bool): (r: seq<T>)
    ensures |r| <= |rows|
    ensures forall t :: t in r <==> t in rows && keep(t)
  {
    if |rows| == 0 then []
    else if keep(rows[0]) then [rows[0]] + Where(rows[1..], keep)
    else Where(rows[1..], keep)
  }

  /** Filtering keeps the order of what it filters. */
  lemma {:induction false} WhereAscending<T(!new)>(rows: seq<T>, keep: T -> bool, key: T -> int)
    requires Ascending(rows, key)
    ensures Ascending(Where(rows, keep), key)
    decreases |rows|
  {
    if |rows| > 0 {
      var tail := rows[1..];
      assert Ascending(tail, key) by {
        forall i, j | 0 <= i < j < |tail| ensures key(tail[i]) < key(tail[j]) {
          assert tail[i] == rows[i + 1] && tail[j] == rows[j + 1];
        }
      }
      WhereAscending(tail, keep, key);
      var rest := Where(tail, keep);
      if keep(rows[0]) {
        var r := Where(rows, keep);
        assert r == [rows[0]] + rest;
        forall i, j | 0 <= i < j < |r| ensures key(r[i]) < key(r[j]) {
          assert r[j] == rest[j - 1];
          if i > 0 {
            assert r[i] == rest[i - 1];
          } else {
            assert rest[j - 1] in tail;
            var k :| 0 <= k < |tail| && tail[k] == rest[j - 1];
            assert tail[k] == rows[k + 1];
          }
        }
      }
    }
  }

  /** The key of the first row in [lo, hi) satisfying `keep`. */
  function FirstKey<T>(m: map<int, T>, keep: T -> bool, lo: int, hi: int): (r: Option<int>)
    ensures r.Some? ==> lo <= r.value < hi && r.value in m && keep(m[r.value])
    ensures r.None? ==> forall k :: lo <= k < hi && k in m ==> !keep(m[k])
    decreases hi - lo
  {
    if lo >= hi then None
    else if lo in m && keep(m[lo]) then Some(lo)
    else FirstKey(m, keep, lo + 1, hi)
  }

  /** `query.offset(skip).limit(size)`. */
  function Window<T>(rows: seq<T>, skip: nat, size: nat): (r: seq<T>)
    ensures |r| <= size
    ensures skip >= |rows| ==> r == []
    ensures skip < |rows| ==> |r| == if skip + size <= |rows| then size else |rows| - skip
    ensures forall i :: 0 <= i < |r| ==> skip + i < |rows| && r[i] == rows[skip + i]
    ensures forall x :: x in r ==> x in rows
  {
    var lo := if skip <= |rows| then skip else |rows|;
    var hi := if skip + size <= |rows| then skip + size else |rows|;
    rows[lo..hi]
  }
}

=== FILE: ticket_schema.dfy ===
/** The ticket schemas of backend/app/schemas/ticket.py: the status and priority enums and
    the length bounds on title and description. */
module TicketSchema {
  import opened Wrappers
  import opened Exceptions

  /** `TicketStatus`: a status is exactly one of these three. */
  datatype Status = Open | InProgress | Closed

  /** `TicketPriority`: a priority is exactly one of these four. */
  datatype Priority = Low | Medium | High | Urgent

  function StatusName(s: Status): string {
    match s
    case Open => "open"
    case InProgress => "in_progress"
    case Closed => "closed"
  }

  function PriorityName(p: Priority): string {
    match p
    case Low => "low"
    case Medium => "medium"
    case High => "high"
    case Urgent => "urgent"
  }

  function ParseStatus(s: string): (r: Option<Status>)
    ensures r.Some? ==> StatusName(r.value) == s
  {
    if s == "open" then Some(Open)
    else if s == "in_progress" then Some(InProgress)
    else if s == "closed" then Some(Closed)
    else None
  }

  function ParsePriority(s: string): (r: Option<Priority>)
    ensures r.Some? ==> PriorityName(r.value) == s
  {
    if s == "low" then Some(Low)
    else if s == "medium" then Some(Medium)
    else if s == "high" then Some(High)
    else if s == "urgent" then Some(Urgent)
    else None
  }

  predicate IsStatusName(s: string) {
    s == "open" || s == "in_progress" || s == "closed"
  }

  predicate IsPriorityName(s: string) {
    s == "low" || s == "medium" || s == "high" || s == "urgent"
  }

  /** Both enums are closed and their names are a bijection with their members. */
  lemma EnumNamesExact(s: string, st: Status, p: Priority)
    ensures ParseStatus(s).Some? <==> IsStatusName(s)
    ensures ParsePriority(s).Some? <==> IsPriorityName(s)
    ensures ParseStatus(StatusName(st)) == Some(st)
    ensures ParsePriority(PriorityName(p)) == Some(p)
  {
  }

  const MaxTitleLength: nat := 200
  const MaxDescriptionLength: nat := 5000

  /** `Field(min_length=lo, max_length=hi)` on a string that is present. */
  function CheckBounds(field: string, v: string, lo: nat, hi: nat): (issues: seq<Issue>)
    ensures issues == [] <==> lo <= |v| <= hi
  {
    if |v| < lo then [Issue(field, TooShort(lo))]
    else if |v| > hi then [Issue(field, TooLong(hi))]
    else []
  }

  predicate TitleOk(t: string) {
    1 <= |t| <= MaxTitleLength
  }

  predicate DescriptionOk(d: string) {
    1 <= |d| <= MaxDescriptionLength
  }

  /** A `TicketCreate` body as it arrives. It has no owner field: the owner is taken from
      the caller's token. */
  datatype TicketCreateRequest = TicketCreateRequest(title: Option<string>, description: Option<string>)
  datatype TicketCreate = TicketCreate(title: string, description: string)

  function ValidateTicketCreate(req: TicketCreateRequest): (r: Result<TicketCreate, seq<Issue>>)
    ensures r.Ok? <==> && req.title.Some? && TitleOk(req.title.value)
                       && req.description.Some? && DescriptionOk(req.description.value)
    ensures r.Ok? ==> r.value == TicketCreate(req.title.value, req.description.value)
    ensures r.Err? ==> |r.error| >= 1
  {
    var t := if req.title.None? then [Issue("title", Missing)]
             else CheckBounds("title", req.title.value, 1, MaxTitleLength);
    var d := if req.description.None? then [Issue("description", Missing)]
             else CheckBounds("description", req.description.value, 1, MaxDescriptionLength);
    if t + d != [] then Err(t + d) else Ok(TicketCreate(req.title.value, req.description.value))
  }

  /** A `TicketUpdate` body as it arrives. */
  datatype TicketUpdateRequest = TicketUpdateRequest(
    title: Option<string>, description: Option<string>, status: Option<string>, priority: Option<string>)
  datatype TicketUpdate = TicketUpdate(
    title: Option<string>, description: Option<string>, status: Option<Status>, priority: Option<Priority>)

  /** Every `TicketUpdate` field is optional; a present one obeys the `TicketCreate` bound
      or enum membership. */
  function ValidateTicketUpdate(req: TicketUpdateRequest): (r: Result<TicketUpdate, seq<Issue>>)
    ensures r.Ok? <==> && (req.title.None? || TitleOk(req.title.value))
                       && (req.description.None? || DescriptionOk(req.description.value))
                       && (req.status.None? || IsStatusName(req.status.value))
                       && (req.priority.None? || IsPriorityName(req.priority.value))
    ensures r.Ok? ==> && r.value.title == req.title && r.value.description == req.description
                      && (r.value.status.Some? <==> req.status.Some?)
                      && (r.value.status.Some? ==> StatusName(r.value.status.value) == req.status.value)
                      && (r.value.priority.Some? <==> req.priority.Some?)
                      && (r.value.priority.Some? ==> PriorityName(r.value.priority.value) == req.priority.value)
  {
    var t := if req.title.None? then [] else CheckBounds("title", req.title.value, 1, MaxTitleLength);
    var d := if req.description.None? then []
             else CheckBounds("description", req.description.value, 1, MaxDescriptionLength);
    var s := if req.status.Some? && ParseStatus(req.status.value).None? then [Issue("status", NotInEnum)] else [];
    var p := if req.priority.Some? && ParsePriority(req.priority.value).None? then [Issue("priority", NotInEnum)] else [];
    if t + d + s + p != [] then Err(t + d + s + p)
    else Ok(TicketUpdate(req.title, req.description,
                         if req.status.None? then None else ParseStatus(req.status.value),
                         if req.priority.None? then None else ParsePriority(req.priority.value)))
  }

  /** `TicketResponse`: status and priority must be enum members; the description may be
      null. */
  datatype TicketResponse = TicketResponse(
    id: int, title: string, description: Option<string>, status: Status, priority: Priority,
    userId: int, createdAt: int, updatedAt: Option<int>)
}

=== FILE: ticket_store.dfy ===
/** The `tickets` table of backend/app/models/ticket.py. */
module TicketStore {
  import opened Wrappers
  import opened Exceptions
  import TicketSchema
  import Table

  /** One row of `tickets`. `status` and `priority` are plain string columns with
      defaults "open" and "medium"; the enums only apply to request and response schemas. */
  datatype Ticket = Ticket(
    id: int, title: string, description: string, status: string, priority: string,
    userId: int, createdAt: int, updatedAt: Option<int>)

  /** The table: rows by primary key, and the next key the database will hand out. */
  datatype Tickets = Tickets(rows: map<int, Ticket>, nextId: int)

  /** Keys are issued upwards from 1 and never reused, and each row carries its own key. */
  predicate Valid(t: Tickets) {
    && t.nextId >= 1
    && forall id :: id in t.rows ==> 1 <= id < t.nextId && t.rows[id].id == id
  }

  /** `select(Ticket)`: every row, each once, in key order. */
  function AllTickets(t: Tickets): (r: seq<Ticket>)
    requires Valid(t)
    ensures forall x :: x in r <==> exists id :: id in t.rows && t.rows[id] == x
    ensures |r| == |t.rows|
    ensures forall i, j :: 0 <= i < j < |r| ==> r[i].id < r[j].id
  {
    Table.ScanCountAll(t.rows, 1, t.nextId);
    Table.ScanAscending(t.rows, 1, t.nextId, (x: Ticket) => x.id);
    Table.Scan(t.rows, 1, t.nextId)
  }

  /** Rendering a row through `response_model=TicketResponse`: a row whose status or
      priority is not an enum member fails response validation, which ends the request in a
      500. */
  function ToResponse(x: Ticket): (r: Result<TicketSchema.TicketResponse, Raised>)
    ensures r.Ok? <==> TicketSchema.IsStatusName(x.status) && TicketSchema.IsPriorityName(x.priority)
    ensures r.Err? ==> r.error == Internal(ResponseInvalid)
    ensures r.Ok? ==> && r.value.id == x.id && r.value.title == x.title && r.value.description == Some(x.description)
                      && TicketSchema.StatusName(r.value.status) == x.status
                      && TicketSchema.PriorityName(r.value.priority) == x.priority
                      && r.value.userId == x.userId && r.value.createdAt == x.createdAt
                      && r.value.updatedAt == x.updatedAt
  {
    TicketSchema.EnumNamesExact(x.status, TicketSchema.Open, TicketSchema.Low);
    TicketSchema.EnumNamesExact(x.priority, TicketSchema.Open, TicketSchema.Low);
    match (TicketSchema.ParseStatus(x.status), TicketSchema.ParsePriority(x.priority))
    case (Some(st), Some(p)) =>
      Ok(TicketSchema.TicketResponse(x.id, x.title, Some(x.description), st, p, x.userId, x.createdAt, x.updatedAt))
    case _ => Err(Internal(ResponseInvalid))
  }
}

=== FILE: tickets_router.dfy ===
/** The handlers of backend/app/routers/tickets.py. Only creation and `/my-tickets` ask for
    a token; listing, reading, updating and deleting take none. */
module TicketsRouter {
  import opened Wrappers
  import opened Exceptions
  import opened Security
  import opened Decimal
  import opened TicketStore
  import opened Dependencies
  import TicketSchema
  import Table
  import ErrorHandlers

  /** `POST /api/tickets`: the owner is the caller's `sub`, bound as a 64-bit column value;
      status and priority take their defaults; title and description are copied from the
      request; the new row is answered through `TicketResponse`. */
  function CreateTicket(c: Crypto, t: Tickets, credentials: Option<string>,
                        req: TicketSchema.TicketCreateRequest, now: int): (o: Step<Tickets, TicketSchema.TicketResponse>)
    requires Valid(t)
    ensures Valid(o.store)
    ensures o.result.Err? ==> o.store == t
    ensures GetCurrentUser(c, credentials).Err? ==> o.result == Err(GetCurrentUser(c, credentials).error)
    ensures GetCurrentUser(c, credentials).Ok? && TicketSchema.ValidateTicketCreate(req).Err? ==>
      o.result == Err(RequestInvalid(TicketSchema.ValidateTicketCreate(req).error))
    ensures GetCurrentUser(c, credentials).Ok? && TicketSchema.ValidateTicketCreate(req).Ok?
            && SubjectId(GetCurrentUser(c, credentials).value).Err? ==>
      o.result == Err(SubjectId(GetCurrentUser(c, credentials).value).error)
    ensures GetCurrentUser(c, credentials).Ok? && TicketSchema.ValidateTicketCreate(req).Ok?
            && SubjectId(GetCurrentUser(c, credentials).value).Ok?
            && !Table.InInt64(SubjectId(GetCurrentUser(c, credentials).value).value) ==>
      o.result == Err(Internal(OverflowError))
    ensures o.result.Ok? <==> && GetCurrentUser(c, credentials).Ok?
                              && TicketSchema.ValidateTicketCreate(req).Ok?
                              && SubjectId(GetCurrentUser(c, credentials).value).Ok?
                              && Table.InInt64(SubjectId(GetCurrentUser(c, credentials).value).value)
    ensures o.result.Ok? ==>
      var owner := SubjectId(GetCurrentUser(c, credentials).value).value;
      && t.nextId !in t.rows
      && o.store == Tickets(t.rows[t.nextId := Ticket(t.nextId, req.title.value, req.description.value,
                                                       "open", "medium", owner, now, None)], t.nextId + 1)
      && o.result.value == TicketSchema.TicketResponse(t.nextId, req.title.value, Some(req.description.value),
                                                       TicketSchema.Open, TicketSchema.Medium, owner, now, None)
  {
    var row :=
      var user :- GetCurrentUser(c, credentials);
      var data :- match TicketSchema.ValidateTicketCreate(req)
                  case Err(issues) => Err(RequestInvalid(issues))
                  case Ok(d) => Ok(d);
      var sub :- SubjectId(user);
      var owner :- Table.Bind(sub);
      Ok(Ticket(t.nextId, data.title, data.description, "open", "medium", owner, now, None));
    match row
    case Err(e) => Step(t, Err(e))
    case Ok(x) =>
      var r := ToResponse(x);
      assert r.Ok? && r.value.status == TicketSchema.Open && r.value.priority == TicketSchema.Medium by {
        TicketSchema.EnumNamesExact("open", r.value.status, TicketSchema.Low);
        TicketSchema.EnumNamesExact("medium", TicketSchema.Open, r.value.priority);
      }
      Step(Tickets(t.rows[x.id := x], t.nextId + 1), r)
  }

  const MaxPageSize: int := 100
  const DefaultPageSize: int := 25

  datatype Pagination = Pagination(page: int, pageSize: int, total: int, pages: int)
  datatype TicketPage = TicketPage(tickets: seq<Ticket>, pagination: Pagination)

  /** The `Query(ge=1)` and `Query(ge=1, le=100)` constraints on `page` and `page_size`. */
  function CheckPaging(page: int, pageSize: int): (issues: seq<Issue>)
    ensures issues == [] <==> page >= 1 && 1 <= pageSize <= MaxPageSize
  {
    (if page < 1 then [Issue("page", TooSmall(1))] else [])
    + (if pageSize < 1 then [Issue("page_size", TooSmall(1))]
       else if pageSize > MaxPageSize then [Issue("page_size", TooLarge(MaxPageSize))] else [])
  }

  /** `if status:` applies the filter only for a non-empty string. */
  predicate Filters(status: Option<string>) {
    status.Some? && status.value != ""
  }

  /** The rows the listing query selects, each once, in key order. */
  function Listing(t: Tickets, status: Option<string>): (r: seq<Ticket>)
    requires Valid(t)
    ensures forall x :: x in r <==> (exists id :: id in t.rows && t.rows[id] == x)
                                    && (Filters(status) ==> x.status == status.value)
    ensures forall i, j :: 0 <= i < j < |r| ==> r[i].id < r[j].id
  {
    if Filters(status) then
      var matches := (x: Ticket) => x.status == status.value;
      Table.WhereAscending(AllTickets(t), matches, (x: Ticket) => x.id);
      Table.Where(AllTickets(t), matches)
    else AllTickets(t)
  }

  /** `(page - 1) * page_size`: never negative for a page the query accepts, and the
      first page starts at the first row. */
  function Offset(page: int, pageSize: int): (skip: nat)
    requires page >= 1 && pageSize >= 1
    ensures skip + pageSize == page * pageSize
    ensures page == 1 <==> skip == 0
  {
    (page - 1) * pageSize
  }

  lemma MulMonotone(a: int, b: int, c: int)
    requires a <= b && c >= 0
    ensures a * c <= b * c
  {
    assert b * c - a * c == (b - a) * c;
  }

  /** A page has rows iff its number is at most the page count. */
  lemma PageInRange(n: nat, page: int, pageSize: int)
    requires page >= 1 && pageSize >= 1
    ensures Offset(page, pageSize) < n <==> page <= PageCount(n, pageSize)
  {
    var pages := PageCount(n, pageSize);
    if page <= pages {
      MulMonotone(page - 1, pages - 1, pageSize);
    } else {
      MulMonotone(pages, page - 1, pageSize);
    }
  }

  /** Row i lies on page i / page_size + 1. */
  lemma RowOnPage(i: nat, pageSize: int)
    requires pageSize >= 1
    ensures var skip := Offset(i / pageSize + 1, pageSize); skip <= i < skip + pageSize
  {
    var q := i / pageSize;
    assert i == q * pageSize + i % pageSize;
    assert Offset(q + 1, pageSize) == q * pageSize;
  }

  /** `(total + page_size - 1) // page_size`: the ceiling of total / page_size, that is
      enough pages for every row and no page wholly beyond the last row. */
  function PageCount(total: nat, pageSize: int): (pages: nat)
    requires pageSize >= 1
    ensures total == 0 ==> pages == 0
    ensures total > 0 ==> pages * pageSize >= total > (pages - 1) * pageSize
  {
    var n := total + pageSize - 1;
    assert n == n / pageSize * pageSize + n % pageSize && 0 <= n % pageSize < pageSize;
    assert (n / pageSize - 1) * pageSize == n / pageSize * pageSize - pageSize;
    n / pageSize
  }

  /** `query.offset((page - 1) * page_size).limit(page_size)` on the selected rows. */
  function PageRows(listed: seq<Ticket>, page: int, size: int): (rows: seq<Ticket>)
    requires page >= 1 && size >= 1
    ensures var skip := Offset(page, size);
      |rows| == (if skip >= |listed| then 0 else if |listed| - skip < size then |listed| - skip else size)
    ensures forall i :: 0 <= i < |rows| ==>
      Offset(page, size) + i < |listed| && rows[i] == listed[Offset(page, size) + i]
    ensures forall x :: x in rows ==> x in listed
  {
    Table.Window(listed, Offset(page, size), size)
  }

  /** `GET /api/tickets` as written: `page` defaults to 1 and `page_size` to 25; the page is
      taken from the filtered rows, but `total` counts every ticket, filter or not. `page` has
      no upper bound, so the offset can exceed what the driver binds. */
  function GetTickets(t: Tickets, status: Option<string>, page: Option<int>, pageSize: Option<int>): (r: Result<TicketPage, Raised>)
    requires Valid(t)
    ensures r.Ok? <==> && page.GetOr(1) >= 1 && 1 <= pageSize.GetOr(DefaultPageSize) <= MaxPageSize
                       && Table.InInt64(Offset(page.GetOr(1), pageSize.GetOr(DefaultPageSize)))
    ensures !(page.GetOr(1) >= 1 && 1 <= pageSize.GetOr(DefaultPageSize) <= MaxPageSize) ==>
      r.Err? && r.error.RequestInvalid? && |r.error.issues| >= 1
    ensures page.GetOr(1) >= 1 && 1 <= pageSize.GetOr(DefaultPageSize) <= MaxPageSize
            && !Table.InInt64(Offset(page.GetOr(1), pageSize.GetOr(DefaultPageSize))) ==>
      r == Err(Internal(OverflowError))
    ensures r.Ok? ==>
      var size := pageSize.GetOr(DefaultPageSize);
      var n := |Listing(t, status)|;
      var skip := Offset(page.GetOr(1), size);
      |r.value.tickets| == (if skip >= n then 0 else if n - skip < size then n - skip else size)
    ensures r.Ok? ==>
      var skip := Offset(page.GetOr(1), pageSize.GetOr(DefaultPageSize));
      forall i :: 0 <= i < |r.value.tickets| ==>
        skip + i < |Listing(t, status)| && r.value.tickets[i] == Listing(t, status)[skip + i]
    ensures r.Ok? ==> forall x :: x in r.value.tickets ==>
      (exists id :: id in t.rows && t.rows[id] == x) && (Filters(status) ==> x.status == status.value)
    ensures r.Ok? ==>
      var size := pageSize.GetOr(DefaultPageSize);
      r.value.pagination == Pagination(page.GetOr(1), size, |t.rows|, PageCount(|t.rows|, size))
  {
    var p := page.GetOr(1);
    var size := pageSize.GetOr(DefaultPageSize);
    var issues := CheckPaging(p, size);
    if issues != [] then Err(RequestInvalid(issues))
    else
      var _ :- Table.Bind(Offset(p, size));
      Ok(TicketPage(PageRows(Listing(t, status), p, size), Pagination(p, size, |t.rows|, PageCount(|t.rows|, size))))
  }

  /** Two tickets, one open and one closed. */
  function TwoTickets(): Tickets {
    Tickets(map[1 := Ticket(1, "a", "a", "open", "medium", 1, 0, None),
                2 := Ticket(2, "b", "b", "closed", "medium", 1, 0, None)], 3)
  }

  /** As written, filtering by status keeps the unfiltered page count: with one open ticket
      out of two and one ticket per page, two pages are announced and the second is empty. */
  lemma FilteredPageCountOvercounts()
    ensures GetTickets(TwoTickets(), Some("open"), Some(1), Some(1)).Ok?
    ensures GetTickets(TwoTickets(), Some("open"), Some(1), Some(1)).value.pagination.pages == 2
    ensures GetTickets(TwoTickets(), Some("open"), Some(2), Some(1)).value.tickets == []
  {
    var t := TwoTickets();
    assert Table.Scan(t.rows, 3, 3) == [];
    assert Table.Scan(t.rows, 2, 3) == [t.rows[2]];
    assert AllTickets(t) == [t.rows[1], t.rows[2]];
    var keep := (x: Ticket) => x.status == "open";
    assert Table.Where([t.rows[2]], keep) == [];
    assert Listing(t, Some("open")) == [t.rows[1]];
  }

  /** `GET /api/tickets` with `total` counting the rows the filter selects. */
  function GetTicketsFilteredTotal(t: Tickets, status: Option<string>, page: Option<int>, pageSize: Option<int>): (r: Result<TicketPage, Raised>)
    requires Valid(t)
    ensures r.Ok? <==> GetTickets(t, status, page, pageSize).Ok?
    ensures r.Ok? ==> r.value.tickets == GetTickets(t, status, page, pageSize).value.tickets
    ensures r.Ok? ==> r.value.pagination.total == |Listing(t, status)|
    ensures r.Ok? ==>
      var size := pageSize.GetOr(DefaultPageSize);
      r.value.pagination == Pagination(page.GetOr(1), size, |Listing(t, status)|, PageCount(|Listing(t, status)|, size))
    ensures r.Err? ==> r == GetTickets(t, status, page, pageSize)
    ensures !Filters(status) ==> r == GetTickets(t, status, page, pageSize)
  {
    Table.ScanCountAll(t.rows, 1, t.nextId);
    var p := page.GetOr(1);
    var size := pageSize.GetOr(DefaultPageSize);
    var issues := CheckPaging(p, size);
    if issues != [] then Err(RequestInvalid(issues))
    else
      var _ :- Table.Bind(Offset(p, size));
      var listed := Listing(t, status);
      Ok(TicketPage(PageRows(listed, p, size), Pagination(p, size, |listed|, PageCount(|listed|, size))))
  }

  /** A well-formed page request whose offset the driver can bind answers the slice of
      the selected rows and the filtered pagination. */
  lemma FilteredTotalPage(t: Tickets, status: Option<string>, page: int, pageSize: int)
    requires Valid(t) && page >= 1 && 1 <= pageSize <= MaxPageSize && Table.InInt64(Offset(page, pageSize))
    ensures var listed := Listing(t, status);
            GetTicketsFilteredTotal(t, status, Some(page), Some(pageSize))
            == Ok(TicketPage(PageRows(listed, page, pageSize), Pagination(page, pageSize, |listed|, PageCount(|listed|, pageSize))))
  {
  }

  /** With the filtered total, the announced pages are exactly the non-empty ones. */
  lemma FilteredTotalPagesExact(t: Tickets, status: Option<string>, page: int, pageSize: int)
    requires Valid(t) && page >= 1 && 1 <= pageSize <= MaxPageSize && Table.InInt64(Offset(page, pageSize))
    ensures var r := GetTicketsFilteredTotal(t, status, Some(page), Some(pageSize)).value;
            r.tickets != [] <==> page <= r.pagination.pages
  {
    PageInRange(|Listing(t, status)|, page, pageSize);
    FilteredTotalPage(t, status, page, pageSize);
  }

  /** With the filtered total, every selected row is on an announced page: row i is on
      page i / page_size + 1. */
  lemma FilteredTotalCoversRow(t: Tickets, status: Option<string>, i: nat, pageSize: int)
    requires Valid(t) && 1 <= pageSize <= MaxPageSize
    requires i < |Listing(t, status)| && Table.InInt64(i)
    ensures var p := i / pageSize + 1;
            var r := GetTicketsFilteredTotal(t, status, Some(p), Some(pageSize)).value;
            p <= r.pagination.pages && Listing(t, status)[i] in r.tickets
  {
    var listed := Listing(t, status);
    var p := i / pageSize + 1;
    RowOnPage(i, pageSize);
    assert Table.InInt64(Offset(p, pageSize));
    RowInPage(listed, i, pageSize);
    FilteredTotalPage(t, status, p, pageSize);
  }

  /** Row i of any selection is on page i / page_size + 1, and that page is announced. */
  lemma RowInPage(listed: seq<Ticket>, i: nat, pageSize: int)
    requires 1 <= pageSize && i < |listed|
    ensures var p := i / pageSize + 1;
            p <= PageCount(|listed|, pageSize) && listed[i] in PageRows(listed, p, pageSize)
  {
    var p := i / pageSize + 1;
    var sk := Offset(p, pageSize);
    RowOnPage(i, pageSize);
    PageInRange(|listed|, p, pageSize);
    var rows := PageRows(listed, p, pageSize);
    assert rows[i - sk] == listed[i];
  }

  /** One past the largest SQLite key is not a missing ticket but a parameter the driver
      cannot bind, and page 10^18 of 25-row pages starts past the 64-bit range: both are
      answered with a 500. */
  lemma OversizedParametersAre500(t: Tickets)
    requires Valid(t)
    ensures GetTicket(t, 9223372036854775808) == Err(Internal(OverflowError))
    ensures GetTickets(t, None, Some(1_000_000_000_000_000_000), None) == Err(Internal(OverflowError))
    ensures ErrorHandlers.Render(Internal(OverflowError)).status == 500
  {
    assert Offset(1_000_000_000_000_000_000, DefaultPageSize) == 24_999_999_999_999_999_975;
  }

  /** What `GET /api/tickets/{id}` shows of a ticket. */
  datatype TicketView = TicketView(id: int, title: string, description: string, status: string, userId: int, createdAt: int)

  function TicketNotFound(): Raised {
    Http(404, "Ticket not found")
  }

  /** `GET /api/tickets/{id}`; an id outside the 64-bit range cannot be bound into the
      lookup. */
  function GetTicket(t: Tickets, id: int): (r: Result<TicketView, Raised>)
    ensures !Table.InInt64(id) ==> r == Err(Internal(OverflowError))
    ensures Table.InInt64(id) && id !in t.rows ==> r == Err(Http(404, "Ticket not found"))
    ensures Table.InInt64(id) && id in t.rows ==> (r.Ok? &&
      var x := t.rows[id];
      r.value == TicketView(x.id, x.title, x.description, x.status, x.userId, x.createdAt))
  {
    var key :- Table.Bind(id);
    match Lookup(t.rows, key)
    case None => Err(TicketNotFound())
    case Some(x) => Ok(TicketView(x.id, x.title, x.description, x.status, x.userId, x.createdAt))
  }

  /** "Ticket not found" is not in the handler table, so a missing ticket is a 404 with
      code HTTP_ERROR. */
  lemma TicketNotFoundRendersHttpError()
    ensures ErrorHandlers.Render(TicketNotFound()).status == 404
    ensures ErrorHandlers.ErrorCode(ErrorHandlers.Render(TicketNotFound())) == "HTTP_ERROR"
  {
    ErrorHandlers.RenderHttp(404, "Ticket not found");
  }

  datatype TicketUpdated = TicketUpdated(id: int, title: string, status: string, message: string)

  /** `PUT /api/tickets/{id}`: each argument that is given overwrites its column; id, owner,
      priority and creation time never change, and no other row does. `updated_at` is set to
      `now` by the column's `onupdate` when the row changed; an update that changes nothing
      writes nothing and keeps it. */
  function UpdateTicket(t: Tickets, id: int, title: Option<string>, description: Option<string>,
                        status: Option<string>, now: int): (o: Step<Tickets, TicketUpdated>)
    requires Valid(t)
    ensures Valid(o.store)
    ensures !Table.InInt64(id) ==> o == Step(t, Err(Internal(OverflowError)))
    ensures Table.InInt64(id) && id !in t.rows ==> o == Step(t, Err(Http(404, "Ticket not found")))
    ensures Table.InInt64(id) && id in t.rows ==>
      && o.result.Ok?
      && o.store.nextId == t.nextId
      && o.store.rows.Keys == t.rows.Keys
      && (forall k :: k in t.rows && k != id ==> o.store.rows[k] == t.rows[k])
      && var before := t.rows[id];
         var after := o.store.rows[id];
         && after.id == before.id && after.userId == before.userId && after.priority == before.priority
         && after.createdAt == before.createdAt
         && (after.title == before.title && after.description == before.description && after.status == before.status
             ==> after.updatedAt == before.updatedAt)
         && (after.title != before.title || after.description != before.description || after.status != before.status
             ==> after.updatedAt == Some(now))
         && (title.Some? ==> after.title == title.value) && (title.None? ==> after.title == before.title)
         && (description.Some? ==> after.description == description.value)
         && (description.None? ==> after.description == before.description)
         && (status.Some? ==> after.status == status.value) && (status.None? ==> after.status == before.status)
         && o.result.value == TicketUpdated(id, after.title, after.status, "Ticket updated")
  {
    if !Table.InInt64(id) then Step(t, Err(Table.Bind(id).error))
    else match Lookup(t.rows, id)
    case None => Step(t, Err(TicketNotFound()))
    case Some(x) =>
      var x' := x.(title := title.GetOr(x.title), description := description.GetOr(x.description),
                   status := status.GetOr(x.status));
      var stored := if x' == x then x else x'.(updatedAt := Some(now));
      Step(Tickets(t.rows[id := stored], t.nextId), Ok(TicketUpdated(id, stored.title, stored.status, "Ticket updated")))
  }

  /** The update takes its arguments without the `TicketUpdate` schema, so a status outside
      `TicketStatus` is stored as given. */
  lemma UpdateTicketAcceptsAnyStatus(t: Tickets, id: int, now: int)
    requires Valid(t) && id in t.rows && Table.InInt64(id)
    ensures UpdateTicket(t, id, None, None, Some("banana"), now).store.rows[id].status == "banana"
    ensures !TicketSchema.IsStatusName("banana")
  {
  }

  /** `DELETE /api/tickets/{id}`: removes exactly that row. */
  function DeleteTicket(t: Tickets, id: int): (o: Step<Tickets, string>)
    requires Valid(t)
    ensures Valid(o.store)
    ensures !Table.InInt64(id) ==> o == Step(t, Err(Internal(OverflowError)))
    ensures Table.InInt64(id) && id !in t.rows ==> o == Step(t, Err(Http(404, "Ticket not found")))
    ensures Table.InInt64(id) && id in t.rows ==>
      && o.result == Ok("Ticket " + IntToString(id) + " deleted successfully")
      && o.store.nextId == t.nextId
      && o.store.rows.Keys == t.rows.Keys - {id}
      && forall k :: k in o.store.rows ==> o.store.rows[k] == t.rows[k]
  {
    if !Table.InInt64(id) then Step(t, Err(Table.Bind(id).error))
    else if id !in t.rows then Step(t, Err(TicketNotFound()))
    else Step(Tickets(t.rows - {id}, t.nextId), Ok("Ticket " + IntToString(id) + " deleted successfully"))
  }

  /** `GET /api/my-tickets`: exactly the tickets whose owner is the caller's `sub`, each
      once, in key order. */
  function MyTickets(c: Crypto, t: Tickets, credentials: Option<string>): (r: Result<seq<Ticket>, Raised>)
    requires Valid(t)
    ensures GetCurrentUser(c, credentials).Err? ==> r == Err(GetCurrentUser(c, credentials).error)
    ensures GetCurrentUser(c, credentials).Ok? && SubjectId(GetCurrentUser(c, credentials).value).Err? ==>
      r == Err(SubjectId(GetCurrentUser(c, credentials).value).error)
    ensures GetCurrentUser(c, credentials).Ok? && SubjectId(GetCurrentUser(c, credentials).value).Ok?
            && !Table.InInt64(SubjectId(GetCurrentUser(c, credentials).value).value) ==>
      r == Err(Internal(OverflowError))
    ensures r.Ok? <==> && GetCurrentUser(c, credentials).Ok? && SubjectId(GetCurrentUser(c, credentials).value).Ok?
                       && Table.InInt64(SubjectId(GetCurrentUser(c, credentials).value).value)
    ensures r.Ok? ==>
      var owner := SubjectId(GetCurrentUser(c, credentials).value).value;
      forall x :: x in r.value <==> (exists id :: id in t.rows && t.rows[id] == x) && x.userId == owner
    ensures r.Ok? ==> forall i, j :: 0 <= i < j < |r.value| ==> r.value[i].id < r.value[j].id
  {
    var user :- GetCurrentUser(c, credentials);
    var sub :- SubjectId(user);
    var owner :- Table.Bind(sub);
    var mine := (x: Ticket) => x.userId == owner;
    Table.WhereAscending(AllTickets(t), mine, (x: Ticket) => x.id);
    Ok(Table.Where(AllTickets(t), mine))
  }

  /** A ticket the caller creates is among their tickets afterwards. */
  lemma CreatedTicketIsMine(c: Crypto, t: Tickets, credentials: Option<string>,
                            req: TicketSchema.TicketCreateRequest, now: int)
    requires Valid(t)
    requires CreateTicket(c, t, credentials, req, now).result.Ok?
    ensures var o := CreateTicket(c, t, credentials, req, now);
            && o.result.value.id in o.store.rows
            && MyTickets(c, o.store, credentials).Ok?
            && o.store.rows[o.result.value.id] in MyTickets(c, o.store, credentials).value
  {
    var o := CreateTicket(c, t, credentials, req, now);
    var x := o.store.rows[t.nextId];
    assert x.userId == SubjectId(GetCurrentUser(c, credentials).value).value;
  }

  /** Deleting a ticket leaves every other ticket readable and unchanged. */
  lemma DeleteLeavesOthers(t: Tickets, id: int, other: int)
    requires Valid(t) && other != id
    ensures GetTicket(DeleteTicket(t, id).store, other) == GetTicket(t, other)
    ensures GetTicket(DeleteTicket(t, id).store, id).Err?
  {
  }
}

=== FILE: user_schema.dfy ===
/** The request and response schemas of backend/app/schemas/user.py: the closed role
    enum and the field rules pydantic enforces before a handler runs. */
module UserSchema {
  import opened Wrappers
  import opened Exceptions

  /** `UserRole`: a role is exactly one of these four. */
  datatype Role = User | Operator | Manager | Admin

  function RoleName(r: Role): string {
    match r
    case User => "user"
    case Operator => "operator"
    case Manager => "manager"
    case Admin => "admin"
  }

  /** Pydantic's coercion of a JSON string into `UserRole`. */
  function ParseRole(s: string): (r: Option<Role>)
    ensures r.Some? ==> RoleName(r.value) == s
  {
    if s == "user" then Some(User)
    else if s == "operator" then Some(Operator)
    else if s == "manager" then Some(Manager)
    else if s == "admin" then Some(Admin)
    else None
  }

  predicate IsRoleName(s: string) {
    s == "user" || s == "operator" || s == "manager" || s == "admin"
  }

  /** The enum is closed: a string is a role iff it is one of the four names, and role names
      are a bijection with roles. */
  lemma RoleNamesExact(s: string, r: Role)
    ensures ParseRole(s).Some? <==> IsRoleName(s)
    ensures ParseRole(RoleName(r)) == Some(r)
    ensures IsRoleName(RoleName(r))
  {
  }

  /** Python's `str.lower()` on ASCII letters. */
  function LowerChar(c: char): char {
    if 'A' <= c <= 'Z' then (c as int + 32) as char else c
  }

  function Lower(s: string): (t: string)
    ensures |t| == |s|
    ensures forall i :: 0 <= i < |s| ==> t[i] == LowerChar(s[i])
  {
    seq(|s|, i requires 0 <= i < |s| => LowerChar(s[i]))
  }

  const MinPasswordLength: nat := 6
  const MaxFullNameLength: nat := 100

  /** The `password_strength` field validator, including its own length test. */
  function PasswordStrength(v: string): (r: Result<string, Rule>)
    ensures r.Ok? <==> |v| >= MinPasswordLength && Lower(v) != "password"
    ensures r.Ok? ==> r.value == v
    ensures r.Err? ==> r.error.Rejected?
  {
    if |v| < 6 then Err(Rejected("Password must be at least 6 characters long"))
    else if Lower(v) == "password" then Err(Rejected("Пароль слишком прост"))
    else Ok(v)
  }

  /** The `password` field of `UserCreate`: the `min_length=6` constraint is checked first
      and the validator only runs on a value that passed it. */
  function CheckPassword(v: Option<string>): (issues: seq<Issue>)
    ensures issues == [] <==> v.Some? && StrongPassword(v.value)
  {
    if v.None? then [Issue("password", Missing)]
    else if |v.value| < MinPasswordLength then [Issue("password", TooShort(MinPasswordLength))]
    else match PasswordStrength(v.value)
      case Ok(_) => []
      case Err(rule) => [Issue("password", rule)]
  }

  predicate StrongPassword(p: string) {
    |p| >= 6 && Lower(p) != "password"
  }

  /** A password is accepted iff it has at least six characters and is not "password" in
      any letter case; the validator's own length branch can never fire. */
  lemma PasswordRule(p: string)
    ensures |p| < MinPasswordLength ==> CheckPassword(Some(p)) == [Issue("password", TooShort(6))]
    ensures |p| >= MinPasswordLength ==> PasswordStrength(p) != Err(Rejected("Password must be at least 6 characters long"))
  {
  }

  /** "password" is refused whatever its letter case. */
  lemma PasswordAnyCase()
    ensures !StrongPassword("PassWord") && !StrongPassword("PASSWORD")
    ensures StrongPassword("secret1")
  {
    assert Lower("PassWord") == "password";
    assert Lower("PASSWORD") == "password";
    assert Lower("secret1")[0] == 's';
  }

  function CheckMaxLength(field: string, v: Option<string>, max: nat): (issues: seq<Issue>)
    ensures issues == [] <==> v.None? || |v.value| <= max
  {
    if v.Some? && |v.value| > max then [Issue(field, TooLong(max))] else []
  }

  function CheckRequired(field: string, v: Option<string>): (issues: seq<Issue>)
    ensures issues == [] <==> v.Some?
  {
    if v.None? then [Issue(field, Missing)] else []
  }

  function CheckRole(v: Option<string>): (issues: seq<Issue>)
    ensures issues == [] <==> v.None? || IsRoleName(v.value)
  {
    if v.Some? && ParseRole(v.value).None? then [Issue("role", NotInEnum)] else []
  }

  /** The `role` of a `UserCreate` body. The field has a default but is not Optional, so an
      explicit null is not the same as leaving it out. */
  datatype RoleField = Absent | Null | Given(name: string) {
    /** The requested role name, or `d` when none is given. */
    function GetOr(d: string): string {
      if Given? then name else d
    }
  }

  /** `role: UserRole = Field(default=UserRole.USER)`: absent takes the default, null is not
      a `UserRole`, and a given name must be one. */
  function CheckRoleField(v: RoleField): (issues: seq<Issue>)
    ensures issues == [] <==> v.Absent? || (v.Given? && IsRoleName(v.name))
  {
    match v
    case Absent => []
    case Null => [Issue("role", NotInEnum)]
    case Given(name) => if ParseRole(name).None? then [Issue("role", NotInEnum)] else []
  }

  /** A `UserCreate` body as it arrives. For email, password and full_name, a JSON field that
      is absent or null is None: a required field rejects both, the Optional one accepts both. */
  datatype UserCreateRequest = UserCreateRequest(
    email: Option<string>, password: Option<string>, fullName: Option<string>, role: RoleField)

  /** A validated `UserCreate`. */
  datatype UserCreate = UserCreate(email: string, password: string, fullName: Option<string>, role: Role)

  /** Pydantic's validation of `UserCreate`: every field is checked and all issues are
      reported together; an absent role takes the default `user`. */
  function ValidateUserCreate(req: UserCreateRequest): (r: Result<UserCreate, seq<Issue>>)
    ensures r.Ok? <==> && req.email.Some? && req.password.Some? && StrongPassword(req.password.value)
                       && (req.fullName.None? || |req.fullName.value| <= MaxFullNameLength)
                       && (req.role.Absent? || (req.role.Given? && IsRoleName(req.role.name)))
    ensures r.Ok? ==> && r.value.email == req.email.value && r.value.password == req.password.value
                      && r.value.fullName == req.fullName
                      && RoleName(r.value.role) == req.role.GetOr("user")
    ensures r.Err? ==> |r.error| >= 1
  {
    var issues := CheckRequired("email", req.email) + CheckPassword(req.password)
                  + CheckMaxLength("full_name", req.fullName, MaxFullNameLength) + CheckRoleField(req.role);
    if issues != [] then Err(issues)
    else Ok(UserCreate(req.email.value, req.password.value, req.fullName,
                       if req.role.Absent? then User else ParseRole(req.role.name).value))
  }

  /** A `UserUpdate` body as it arrives. */
  datatype UserUpdateRequest = UserUpdateRequest(email: Option<string>, fullName: Option<string>, role: Option<string>)
  datatype UserUpdate = UserUpdate(email: Option<string>, fullName: Option<string>, role: Option<Role>)

  /** Every `UserUpdate` field is optional; a present one obeys the `UserCreate` rule. */
  function ValidateUserUpdate(req: UserUpdateRequest): (r: Result<UserUpdate, seq<Issue>>)
    ensures r.Ok? <==> && (req.fullName.None? || |req.fullName.value| <= MaxFullNameLength)
                       && (req.role.None? || IsRoleName(req.role.value))
    ensures r.Ok? ==> && r.value.email == req.email && r.value.fullName == req.fullName
                      && (r.value.role.Some? <==> req.role.Some?)
                      && (r.value.role.Some? ==> RoleName(r.value.role.value) == req.role.value)
  {
    var issues := CheckMaxLength("full_name", req.fullName, MaxFullNameLength) + CheckRole(req.role);
    if issues != [] then Err(issues)
    else Ok(UserUpdate(req.email, req.fullName,
                       if req.role.None? then None else ParseRole(req.role.value)))
  }

  /** A `UserLogin` body as it arrives. */
  datatype UserLoginRequest = UserLoginRequest(email: Option<string>, password: Option<string>)
  datatype UserLogin = UserLogin(email: string, password: string)

  /** Login only asks for a non-empty password; the strength rule is not applied again. */
  function ValidateUserLogin(req: UserLoginRequest): (r: Result<UserLogin, seq<Issue>>)
    ensures r.Ok? <==> req.email.Some? && req.password.Some? && |req.password.value| >= 1
    ensures r.Ok? ==> r.value == UserLogin(req.email.value, req.password.value)
  {
    var pw := if req.password.None? then [Issue("password", Missing)]
              else if |req.password.value| < 1 then [Issue("password", TooShort(1))]
              else [];
    var issues := CheckRequired("email", req.email) + pw;
    if issues != [] then Err(issues) else Ok(UserLogin(req.email.value, req.password.value))
  }

  /** Leaving the role out registers a plain user; an explicit null is refused. */
  lemma NullRoleIsNotAbsentRole(email: string)
    ensures var absent := ValidateUserCreate(UserCreateRequest(Some(email), Some("secret1"), None, Absent));
            absent.Ok? && absent.value.role == User
    ensures ValidateUserCreate(UserCreateRequest(Some(email), Some("secret1"), None, Null)).Err?
  {
  }

  /** A password too weak to register with is still a well-formed login attempt. */
  lemma LoginSkipsStrengthRule(email: string)
    ensures ValidateUserCreate(UserCreateRequest(Some(email), Some("abc"), None, Absent)).Err?
    ensures ValidateUserLogin(UserLoginRequest(Some(email), Some("abc"))).Ok?
  {
    PasswordRule("abc");
  }

  /** `UserResponse`: what a handler may show of a user. There is no password field. */
  datatype UserResponse = UserResponse(
    id: int, email: string, fullName: Option<string>, role: Role, createdAt: int, updatedAt: Option<int>)
}

=== FILE: user_store.dfy ===
/** The `users` table as the routers see it. The ORM model `app.models.user` is not part of
    this model; its fields are the ones the handlers read and write. */
module UserStore {
  import opened Wrappers
  import opened Exceptions
  import UserSchema
  import Table

  /** One row of `users`. `role` is taken to be a plain string column, as `status` and
      `priority` are in the tickets model, so the enum is only enforced on request and
      response schemas. The users model is not part of this model; with an `Enum` column a
      value outside `UserRole` would instead fail when the session flushes. */
  datatype User = User(
    id: int, email: string, passwordHash: string, fullName: Option<string>,
    role: string, createdAt: int, updatedAt: Option<int>)

  /** The table: rows by primary key, and the next key the database will hand out. */
  datatype Users = Users(rows: map<int, User>, nextId: int)

  /** The table's invariant: keys are issued upwards from 1 and never reused, each row
      carries its own key, and no two rows share an email. Email uniqueness is not a database
      constraint here: it holds because the handlers look the email up before they insert,
      with requests taken one at a time. */
  predicate Valid(s: Users) {
    && s.nextId >= 1
    && (forall id :: id in s.rows ==> 1 <= id < s.nextId && s.rows[id].id == id)
    && (forall a, b :: a in s.rows && b in s.rows && s.rows[a].email == s.rows[b].email ==> a == b)
  }

  /** Every key is a SQLite INTEGER, a signed 64-bit value. This holds of any real table;
      `Valid` does not carry it because the model issues keys without an upper bound. */
  predicate KeysFit(s: Users) {
    forall id :: id in s.rows ==> Table.InInt64(id)
  }

  predicate EmailTaken(s: Users, email: string) {
    exists id :: id in s.rows && s.rows[id].email == email
  }

  /** `select(User).where(User.email == email)` with `scalar_one_or_none()`. */
  function FindByEmail(s: Users, email: string): (r: Option<User>)
    requires Valid(s)
    ensures r.Some? <==> EmailTaken(s, email)
    ensures r.Some? ==> r.value.id in s.rows && s.rows[r.value.id] == r.value && r.value.email == email
  {
    match Table.FirstKey(s.rows, (u: User) => u.email == email, 1, s.nextId)
    case None => None
    case Some(id) => Some(s.rows[id])
  }

  /** `select(User).where(User.id == id)` with `scalar_one_or_none()`. */
  function FindById(s: Users, id: int): (r: Option<User>)
    ensures r.Some? <==> id in s.rows
    ensures r.Some? ==> r.value == s.rows[id]
  {
    Lookup(s.rows, id)
  }

  /** `select(User)`: every row, each once, in key order. */
  function AllUsers(s: Users): (r: seq<User>)
    requires Valid(s)
    ensures forall u :: u in r <==> exists id :: id in s.rows && s.rows[id] == u
    ensures |r| == |s.rows|
    ensures forall i, j :: 0 <= i < j < |r| ==> r[i].id < r[j].id
  {
    Table.ScanCountAll(s.rows, 1, s.nextId);
    Table.ScanAscending(s.rows, 1, s.nextId, (u: User) => u.id);
    Table.Scan(s.rows, 1, s.nextId)
  }

  /** `db.add(User(...))` followed by commit: the row gets the next key. */
  function Insert(s: Users, email: string, passwordHash: string, fullName: Option<string>,
                  role: string, now: int): (o: (Users, User))
    requires Valid(s) && !EmailTaken(s, email)
    ensures Valid(o.0)
    ensures o.1 == User(s.nextId, email, passwordHash, fullName, role, now, None)
    ensures s.nextId !in s.rows && o.0.rows == s.rows[s.nextId := o.1]
    ensures o.0.nextId == s.nextId + 1
    ensures EmailTaken(o.0, email)
  {
    var u := User(s.nextId, email, passwordHash, fullName, role, now, None);
    var s' := Users(s.rows[s.nextId := u], s.nextId + 1);
    assert s'.rows[u.id].email == email;
    (s', u)
  }

  /** Rendering a row through `response_model=UserResponse`: a row whose role is not a
      `UserRole` fails response validation, which ends the request in a 500. */
  function ToResponse(u: User): (r: Result<UserSchema.UserResponse, Raised>)
    ensures r.Ok? <==> UserSchema.IsRoleName(u.role)
    ensures r.Err? ==> r.error == Internal(ResponseInvalid)
    ensures r.Ok? ==> && r.value.id == u.id && r.value.email == u.email && r.value.fullName == u.fullName
                      && UserSchema.RoleName(r.value.role) == u.role
                      && r.value.createdAt == u.createdAt && r.value.updatedAt == u.updatedAt
  {
    UserSchema.RoleNamesExact(u.role, UserSchema.User);
    match UserSchema.ParseRole(u.role)
    case None => Err(Internal(ResponseInvalid))
    case Some(role) => Ok(UserSchema.UserResponse(u.id, u.email, u.fullName, role, u.createdAt, u.updatedAt))
  }

  /** A response never depends on the stored password hash. */
  lemma ResponseHidesPassword(u: User, otherHash: string)
    ensures ToResponse(u.(passwordHash := otherHash)) == ToResponse(u)
  {
  }

  /** Every stored role is a `UserRole` name. */
  predicate RolesValid(s: Users) {
    forall id :: id in s.rows ==> UserSchema.IsRoleName(s.rows[id].role)
  }
}

=== FILE: users_router.dfy ===
/** The handlers of backend/app/routers/users.py. */
module UsersRouter {
  import opened Wrappers
  import opened Exceptions
  import opened Security
  import opened UserStore
  import opened Dependencies
  import UserSchema
  import AuthRouter
  import ErrorHandlers
  import Table

  /** `POST /api/users`: line for line the same as `POST /auth/register`, and like it open to
      callers without a token. */
  function CreateUser(c: Crypto, s: Users, req: UserSchema.UserCreateRequest, now: int): (o: Step<Users, UserSchema.UserResponse>)
    requires Valid(s)
    ensures o == AuthRouter.Register(c, s, req, now)
    ensures Valid(o.store)
    ensures o.result.Err? ==> o.store == s
  {
    match UserSchema.ValidateUserCreate(req)
    case Err(issues) => Step(s, Err(RequestInvalid(issues)))
    case Ok(data) =>
      if FindByEmail(s, data.email).Some? then Step(s, Err(EmailExistsError()))
      else
        var (s', u) := Insert(s, data.email, c.hashPassword(data.password), data.fullName,
                              UserSchema.RoleName(data.role), now);
        Step(s', ToResponse(u))
  }

  /** `GET /api/users/me`: the same lookup as `GET /auth/me`. */
  function CurrentUserInfo(c: Crypto, s: Users, credentials: Option<string>): (r: Result<UserSchema.UserResponse, Raised>)
    ensures r == AuthRouter.Me(c, s, credentials)
  {
    var user :- GetCurrentUser(c, credentials);
    var sub :- SubjectId(user);
    var id :- Table.Bind(sub);
    match FindById(s, id)
    case None => Err(UserNotFoundError())
    case Some(u) => ToResponse(u)
  }

  /** `GET /api/users/{user_id}`: any authenticated caller, whatever their role, may read any
      user; an absent id is UserNotFound, and an id outside the 64-bit range cannot be bound
      into the lookup. */
  function GetUserById(c: Crypto, s: Users, credentials: Option<string>, id: int): (r: Result<UserSchema.UserResponse, Raised>)
    ensures GetCurrentUser(c, credentials).Err? ==> r == Err(GetCurrentUser(c, credentials).error)
    ensures GetCurrentUser(c, credentials).Ok? && !Table.InInt64(id) ==> r == Err(Internal(OverflowError))
    ensures GetCurrentUser(c, credentials).Ok? && Table.InInt64(id) ==>
      (if id in s.rows then r == ToResponse(s.rows[id]) else r == Err(UserNotFoundError()))
  {
    var _ :- GetCurrentUser(c, credentials);
    var key :- Table.Bind(id);
    match FindById(s, key)
    case None => Err(UserNotFoundError())
    case Some(u) => ToResponse(u)
  }

  /** Reading one's own id answers exactly what `/me` answers. */
  lemma GetOwnUserIsMe(c: Crypto, s: Users, credentials: Option<string>)
    requires GetCurrentUser(c, credentials).Ok? && SubjectId(GetCurrentUser(c, credentials).value).Ok?
    ensures GetUserById(c, s, credentials, SubjectId(GetCurrentUser(c, credentials).value).value)
            == AuthRouter.Me(c, s, credentials)
  {
  }

  /** `GET /api/admin/users`, behind `require_role("admin")`: every row, to admins only. */
  function GetAllUsers(c: Crypto, s: Users, credentials: Option<string>): (r: Result<seq<User>, Raised>)
    requires Valid(s)
    ensures GetCurrentUser(c, credentials).Err? ==> r == Err(GetCurrentUser(c, credentials).error)
    ensures GetCurrentUser(c, credentials).Ok? ==>
      (r.Ok? <==> RoleOf(GetCurrentUser(c, credentials).value) == Some("admin"))
    ensures r.Err? && GetCurrentUser(c, credentials).Ok? ==> r.error == Api(403, "Requires admin role", "FORBIDDEN")
    ensures r.Ok? ==> forall u :: u in r.value <==> exists id :: id in s.rows && s.rows[id] == u
    ensures r.Ok? ==> |r.value| == |s.rows|
    ensures r.Ok? ==> forall i, j :: 0 <= i < j < |r.value| ==> r.value[i].id < r.value[j].id
  {
    var user :- GetCurrentUser(c, credentials);
    var _ :- RequireRole("admin", user);
    Ok(AllUsers(s))
  }

  /** For an admin, the list and the single-user lookups agree: every id `GET /api/users/{id}`
      finds is listed, and every listed row is what that lookup finds for its id. */
  lemma AdminListMatchesLookups(c: Crypto, s: Users, credentials: Option<string>)
    requires Valid(s) && AsAdmin(c, credentials).Ok?
    ensures GetAllUsers(c, s, credentials).Ok?
    ensures forall id :: FindById(s, id).Some? ==> FindById(s, id).value in GetAllUsers(c, s, credentials).value
    ensures var r := GetAllUsers(c, s, credentials).value;
            forall i :: 0 <= i < |r| ==> FindById(s, r[i].id) == Some(r[i])
  {
    var r := GetAllUsers(c, s, credentials).value;
    forall i | 0 <= i < |r| ensures FindById(s, r[i].id) == Some(r[i]) {
      assert r[i] in r;
    }
  }

  datatype RoleUpdated = RoleUpdated(message: string, user: User)

  /** `PATCH /api/admin/users/{user_id}/role` as written: behind `require_role("admin")`, it
      sets the role to `role_data["role"]` when that key is present, whatever its value, and
      changes nothing else. */
  function UpdateUserRole(c: Crypto, s: Users, credentials: Option<string>, id: int,
                          roleData: map<string, string>): (o: Step<Users, RoleUpdated>)
    requires Valid(s)
    ensures Valid(o.store)
    ensures o.result.Err? ==> o.store == s
    ensures o.result.Ok? <==> && GetCurrentUser(c, credentials).Ok?
                              && RoleOf(GetCurrentUser(c, credentials).value) == Some("admin")
                              && Table.InInt64(id) && id in s.rows
    ensures GetCurrentUser(c, credentials).Err? ==> o == Step(s, Err(GetCurrentUser(c, credentials).error))
    ensures GetCurrentUser(c, credentials).Ok? && RoleOf(GetCurrentUser(c, credentials).value) != Some("admin") ==>
      o == Step(s, Err(Api(403, "Requires admin role", "FORBIDDEN")))
    ensures AsAdmin(c, credentials).Ok? && !Table.InInt64(id) ==> o == Step(s, Err(Internal(OverflowError)))
    ensures (AsAdmin(c, credentials).Ok? && Table.InInt64(id) && id !in s.rows) ==> o.result == Err(UserNotFoundError())
    ensures o.result.Ok? ==>
      var u := s.rows[id].(role := if "role" in roleData then roleData["role"] else s.rows[id].role);
      && o.store == Users(s.rows[id := u], s.nextId)
      && o.result.value == RoleUpdated("Role updated to " + u.role, u)
  {
    match AsAdmin(c, credentials)
    case Err(e) => Step(s, Err(e))
    case Ok(_) =>
      match Table.Bind(id)
      case Err(e) => Step(s, Err(e))
      case Ok(key) =>
        match FindById(s, key)
        case None => Step(s, Err(UserNotFoundError()))
        case Some(u) =>
          var u' := u.(role := Lookup(roleData, "role").GetOr(u.role));
          Step(Users(s.rows[key := u'], s.nextId), Ok(RoleUpdated("Role updated to " + u'.role, u')))
  }

  /** The dependency `require_role("admin")` on top of `get_current_user`: the token's
      error first, then the role check's 403; an admin's payload passes through unchanged. */
  function AsAdmin(c: Crypto, credentials: Option<string>): (r: Result<Payload, Raised>)
    ensures r.Ok? <==> GetCurrentUser(c, credentials).Ok? && RoleOf(GetCurrentUser(c, credentials).value) == Some("admin")
    ensures GetCurrentUser(c, credentials).Err? ==> r == Err(GetCurrentUser(c, credentials).error)
    ensures GetCurrentUser(c, credentials).Ok? && RoleOf(GetCurrentUser(c, credentials).value) != Some("admin") ==>
      r == Err(Api(403, "Requires admin role", "FORBIDDEN"))
    ensures r.Ok? ==> r.value == GetCurrentUser(c, credentials).value
  {
    var user :- GetCurrentUser(c, credentials);
    assert "Requires " + "admin" + " role" == "Requires admin role";
    RequireRole("admin", user)
  }

  /** As written, an admin can store a role outside `UserRole`; from then on every handler
      that answers with that user's `UserResponse` fails with a 500. */
  lemma UpdateUserRoleStoresNonRole(c: Crypto, s: Users, credentials: Option<string>, id: int)
    requires Valid(s) && KeysFit(s) && id in s.rows
    requires AsAdmin(c, credentials).Ok?
    ensures var s' := UpdateUserRole(c, s, credentials, id, map["role" := "superuser"]).store;
            && !RolesValid(s')
            && GetUserById(c, s', credentials, id) == Err(Internal(ResponseInvalid))
            && ErrorHandlers.Render(Internal(ResponseInvalid)).status == 500
  {
    var s' := UpdateUserRole(c, s, credentials, id, map["role" := "superuser"]).store;
    assert s'.rows[id].role == "superuser";
    assert !UserSchema.IsRoleName("superuser");
  }

  /** `update_user_role` with the new value checked against `UserRole`. The token and the
      admin check come first, then the lookup; only for an admin and a stored user is a
      value outside the enum a 422, with the table unchanged. Otherwise it agrees with the
      handler as written. */
  function UpdateUserRoleChecked(c: Crypto, s: Users, credentials: Option<string>, id: int,
                                 roleData: map<string, string>): (o: Step<Users, RoleUpdated>)
    requires Valid(s)
    ensures Valid(o.store)
    ensures o.result.Err? ==> o.store == s
    ensures AsAdmin(c, credentials).Err? ==> o == Step(s, Err(AsAdmin(c, credentials).error))
    ensures AsAdmin(c, credentials).Ok? && !Table.InInt64(id) ==> o == Step(s, Err(Internal(OverflowError)))
    ensures AsAdmin(c, credentials).Ok? && Table.InInt64(id) && id !in s.rows ==> o == Step(s, Err(UserNotFoundError()))
    ensures o.result.Ok? <==> && AsAdmin(c, credentials).Ok? && Table.InInt64(id) && id in s.rows
                              && ("role" in roleData ==> UserSchema.IsRoleName(roleData["role"]))
    ensures AsAdmin(c, credentials).Ok? && Table.InInt64(id) && id in s.rows && "role" in roleData && !UserSchema.IsRoleName(roleData["role"]) ==>
      o.result == Err(RequestInvalid([Issue("role", NotInEnum)]))
    ensures !("role" in roleData && !UserSchema.IsRoleName(roleData["role"])) ==>
      o == UpdateUserRole(c, s, credentials, id, roleData)
  {
    match AsAdmin(c, credentials)
    case Err(e) => Step(s, Err(e))
    case Ok(_) =>
      match Table.Bind(id)
      case Err(e) => Step(s, Err(e))
      case Ok(key) =>
        match FindById(s, key)
        case None => Step(s, Err(UserNotFoundError()))
        case Some(u) =>
          if "role" in roleData && UserSchema.ParseRole(roleData["role"]).None? then
            Step(s, Err(RequestInvalid([Issue("role", NotInEnum)])))
          else
            var u' := u.(role := Lookup(roleData, "role").GetOr(u.role));
            Step(Users(s.rows[key := u'], s.nextId), Ok(RoleUpdated("Role updated to " + u'.role, u')))
  }

  /** With the check, role updates keep every stored role inside `UserRole`. */
  lemma UpdateUserRoleCheckedKeepsRolesValid(c: Crypto, s: Users, credentials: Option<string>, id: int,
                                             roleData: map<string, string>)
    requires Valid(s) && RolesValid(s)
    ensures RolesValid(UpdateUserRoleChecked(c, s, credentials, id, roleData).store)
  {
    if "role" in roleData {
      UserSchema.RoleNamesExact(roleData["role"], UserSchema.User);
    }
  }
}

=== FILE: wrappers.dfy ===
/** Option and Result, the failure-compatible datatypes the rest of the model uses
    in place of Python's None and raised exceptions. */
module Wrappers {

  datatype Option<+T> = None | Some(value: T) {

    predicate IsFailure() {
      None?
    }

    function PropagateFailure<U>(): Option<U>
      requires None?
    {
      None
    }

    function Extract(): T
      requires Some?
    {
      value
    }

    /** The value, or `default` when absent (Python's `d.get(k, default)`). */
    function GetOr(default: T): T {
      match this
      case Some(v) => v
      case None => default
    }
  }

  /** Either a value or the exception that was raised instead. */
  datatype Result<+T, +E> = Ok(value: T) | Err(error: E) {

    predicate IsFailure() {
      Err?
    }

    function PropagateFailure<U>(): Result<U, E>
      requires Err?
    {
      Err(error)
    }

    function Extract(): T
      requires Ok?
    {
      value
    }
  }

  /** `m.get(k)` on a Python dict. */
  function Lookup<K, V>(m: map<K, V>, k: K): (r: Option<V>)
    ensures r.Some? <==> k in m
    ensures r.Some? ==> r.value == m[k]
  {
    if k in m then Some(m[k]) else None
  }
}
